=== FILE: README.md ===
# avalanche-installer, modelled in Dafny

This project models the decision and naming layer of `avalanche-installer`.
That is the Rust library that fetches the `avalanchego` node and the `subnet-evm`
plugin from their GitHub release pages, and that syncs a node binary and its
plugins from an S3 bucket. The network, archive and file-system calls around
this layer are replaced by parameters that supply their outcomes.

| file | module | what it models |
|---|---|---|
| `wrappers.dfy` | `Wrappers`, `Io` | `Option`/`Result`; the installer's failures, one per error site. `Io.Kind` marks the installer's own `io::Error`s as `InvalidInput` or `Other`, and errors passed on from the OS or a helper crate as `Propagated`. `Panicked` stands for an `unwrap` panic, not an error value. |
| `retry.dfy` | `Retries` | the bounded retry loop with linear backoff. The source writes it out five times. |
| `platform.dfy` | `Platform` | `Arch`/`Os` display and `new`, and the host-arch mapping. The three source copies are identical. |
| `paths.dfy` | `Paths` | `std::path` on unix: components (a leading `.` kept as the current directory), `join`, `parent`, `file_name`, `file_stem` |
| `releases.dfy` | `Releases` | `ReleaseResponse` and `GithubResponse`, their defaults, serde's decoding rules for their fields, and `fetch_latest_release` |
| `resolver.dfy` | `Resolver` | release-tag resolution: explicit tag, polling with retries, fallback to the pinned default |
| `archives.dfy` | `Archives` | decoders, the download URL, and the outcome environment of one download |
| `node_installer.dfy` | `NodeInstaller` | `avalanchego/github.rs`: the per-platform archive name and the binary layout |
| `subnet_evm_installer.dfy` | `SubnetEvmInstaller` | `subnet_evm/github.rs`: names with leading `v` trimmed, Windows refused, flat binary layout |
| `legacy_node_installer.dfy` | `LegacyNodeInstaller` | `avalanchego.rs`: a single fetch and a (binary, plugins) pair of paths |
| `plugin_layout.dfy` | `PluginLayout` | `get_plugin_dir` / `get_plugins_dir` |
| `s3_sync.dfy` | `S3Sync` | `download_avalanche_and_plugins` and `extract_filename` |

**The retry loop.** The retry loop is one function, `Retries.Retry`. An
`attempt` oracle says what round `r` answers. `Retries.RetryLoop` is the
imperative loop, and it is proved equal to that function.

**Tag resolution.** `Resolver.ResolveTag` instantiates the loop:
- the node repository uses 10 rounds with a 3-second base delay;
- subnet-evm uses 20 rounds with a 5-second base delay.

A failed fetch and a response without `tag_name` both count as a retryable
round.

**The S3 sync.**
- **Store.** The bucket is a sequence of keyed objects. A fault oracle is
  indexed by the global count of store calls and answers `Done`,
  `RetryableErr` or `NonRetryableErr` for each call. A `get_object` of a
  missing key is a non-retryable error.
- **Local file system.** The local file system is a value: files with
  contents, directories, the set of files made executable, and scratch files.
- **Observable behaviour.** The run records a trace of events: gets,
  listings, sleeps, directory creation and placements.
- **What is proved:**
  - the need-download rule;
  - the 20-round loops and their early exits;
  - the phase order: binary, then list, then directory, then plugins;
  - every sleep is a multiple of 5 seconds and at most 100;
  - nothing is ever rolled back;
  - after a successful run, a run without overwrite fetches nothing.

Four behaviours of the code are easy to misread:
- **Current directory.** `std::path` keeps a leading `.` as a component, so
  `.` and `./` have the parent `""`, and their plugin directory is the
  relative `plugins` (`PluginLayout.CurDirPluginDir`).
- **Unknown host architecture.** It maps to the empty label, which is
  spliced into the Linux archive name without error. Only an empty file name
  raises "unknown platform" (`NodeInstaller.UnknownHostArchIsSpliced`).
- **Placeholder filter.** The filter uses `ends_with("plugin")`, not
  equality. Its second test, `ends_with("plugin/")`, can never hold, because
  an extracted name has no `/` (`S3Sync.PlaceholderSuffix`).
- **Subnet-evm empty-name check.** This check can never fire, because every
  subnet-evm name is non-empty (`SubnetEvmInstaller.SubnetEvmArchive`).

## Model

| member | source | states |
|---|---|---|
| Io.Kind | src/avalanchego/github.rs:208-219 | only the `Arch::new`/`Os::new` rejections are `InvalidInput`; errors passed on with `?` from the OS or a helper crate are `Propagated`; the installer's other own errors are `Other`; a panic has no kind |
| Retries.RetryFrom | src/avalanchego/s3.rs:32-59 | from a given round on: makes at most `budget` rounds; an earlier round is always retryable; ends on the round that succeeded or aborted, or after `budget` rounds; one delay `(r+1)*base` per retryable round |
| Retries.Retry | src/avalanchego/s3.rs:32-65 | the outcome is Exhausted exactly when all `budget` rounds are retryable, and then exactly `budget` rounds are made; otherwise the last round is the first non-retryable answer; the delays are `5, 10, ...` (for base 5), one per retryable round, including after the last round |
| Retries.RetryFromClosedForm | src/avalanchego/s3.rs:32-59 | when rounds before k are retryable and round k is not (or k is the budget), the loop ends at k: Succeeded or Aborted by round k's answer with k+1 rounds, or Exhausted with `budget` rounds, having slept `(r+1)*base` after each retryable round r |
| Retries.RetryLoop | src/avalanchego/s3.rs:31-65 | the imperative `for round in 0..budget` loop with `break`/`return` computes the same run as `Retry` |
| Retries.StopsAtFirstSuccess | src/avalanchego/s3.rs:43-46 | a success at round k, after k retryable rounds, stops the loop with k+1 rounds |
| Retries.AlwaysRetryableExhausts | src/avalanchego/s3.rs:49-53 | an always-retryable store makes exactly `budget` rounds and sleeps `base, 2*base, ..., budget*base` |
| Platform.ParseArch | src/avalanchego/github.rs:208-219 | `Arch::new` accepts exactly "amd64" and "arm64", inverts display, and rejects anything else with an InvalidInput error |
| Platform.ParseOs | src/subnet_evm/github.rs:223-234 | `Os::new` accepts exactly "macos", "linux" and "win", inverts display, and rejects anything else with an InvalidInput error |
| Platform.ArchRoundTrip | src/avalanchego.rs:21-41 | `Arch::new(a.to_string()) == Ok(a)` for every variant |
| Platform.OsRoundTrip | src/avalanchego.rs:54-76 | `Os::new(o.to_string()) == Ok(o)` for every variant |
| Platform.LabelsInjective | src/subnet_evm/github.rs:180-221 | distinct variants display differently |
| Platform.ResolveArchLabel | src/avalanchego/github.rs:91-102 | an explicit arch gives a label that parses back to it; otherwise x86_64 gives amd64, aarch64 gives arm64, and any other host gives "" with no error |
| Releases.DecodeOptString | src/github.rs:43-44 | an `Option<String>` field: a missing field or null gives None, a string gives Some of exactly that string, anything else is a decode error |
| Releases.DecodeString | src/github.rs:71-74 | a required string field: only a present string decodes, and it decodes to that string |
| Releases.DecodeBoolOrFalse | src/github.rs:48-49 | `#[serde(default)] bool`: only a missing field defaults to false; a boolean decodes as itself; null and other values are errors |
| Releases.DecodeAsset | src/github.rs:71-74 | an asset decodes exactly from an object whose `name` and `browser_download_url` are strings, and carries both strings; any other input is a decode error |
| Releases.DecodeAssets | src/lib.rs:36 | a list decodes exactly when every element does, element by element, with the same length |
| Releases.DecodeOptAssets | src/github.rs:45-46 | `Option<Vec<Asset>>`: missing or null gives None; an array decodes exactly when its list does, to Some of that list; any other value is an error |
| Releases.DecodeRelease | src/github.rs:39-50 | decodes exactly an object whose three fields decode; carries the decoded `tag_name` and `assets`, and `prerelease` is true exactly when the field is `true`; a missing `prerelease` gives false, and a missing `tag_name` or `assets` gives None rather than an error |
| Releases.DecodeGithub | src/lib.rs:29-40 | the older record decodes exactly from an object whose `tag_name` and `prerelease` decode and whose `assets` is a decodable list; it carries the decoded values; `prerelease` defaults to false and `tag_name` is optional |
| Releases.AssetRoundTrip | src/github.rs:69-74 | an asset serialized by the derived `Serialize` decodes back to itself |
| Releases.AssetsRoundTrip | src/github.rs:45-46 | a serialized asset list decodes back to the same list |
| Releases.ReleaseRoundTrip | src/github.rs:39-50 | a serialized `ReleaseResponse` (None written as null) decodes back to itself |
| Releases.GithubRoundTrip | src/lib.rs:29-40 | a serialized `GithubResponse` decodes back to itself |
| Releases.EmptyObjectIsDefaultRelease | src/github.rs:58-66 | `{}` decodes to the default record (None, None, false) |
| Releases.GithubNeedsAssets | src/lib.rs:48-56 | `{}` does not decode as a `GithubResponse`; `{"assets": []}` decodes to its default (None, [], false) |
| Releases.NullPrereleaseRejected | src/github.rs:48-49 | a null `prerelease` is an error, not the default |
| Releases.EndpointInjective | src/github.rs:20-23 | the endpoint `https://api.github.com/repos/{org}/{repo}/releases/latest` determines org and repo |
| Releases.FetchLatestRelease | src/github.rs:19-37 | fetches the repository's endpoint; a transport failure or an undecodable body is an error, never a default; success is exactly a decodable body |
| Releases.FetchLatestGithub | src/lib.rs:9-27 | the same for the older record: a transport failure or an undecodable body is an error, and an Ok result is exactly the decoded body |
| Resolver.ResolveTag | src/avalanchego/github.rs:35-84 | an explicit tag makes no fetch and is used as given; for the node repository, "latest" becomes the default. Otherwise it fetches at most `budget` times and stops at the first Ok response with a tag, whose tag is used unless it is a prerelease; if no round is accepted, all `budget` rounds run and the default is used; the delays are `(r+1)*base` |
| Resolver.NeverPrerelease | src/avalanchego/github.rs:74-83 | the resolved tag is the default, or the tag of the last fetched response, which is not a prerelease |
| Resolver.NodeLatestIsDefault | src/avalanchego/github.rs:35-39 | an explicit "latest" resolves to "v1.9.16" with no fetch |
| Resolver.SubnetEvmExplicitVerbatim | src/subnet_evm/github.rs:26-27 | any explicit tag, "latest" included, is used verbatim with no fetch |
| Resolver.AlwaysFailingApi | src/subnet_evm/github.rs:31-57 | an API that always fails uses the whole budget, sleeps `base, ..., budget*base`, then falls back to the default |
| Resolver.NodeBackoffSchedule | src/avalanchego/github.rs:46-67 | for the node repository those sleeps are 3, 6, ..., 30 seconds |
| Resolver.PrereleaseStopsEarly | src/subnet_evm/github.rs:59-68 | a prerelease answer in round 0 ends the polling after one fetch with the default tag |
| Resolver.FirstAcceptedWins | src/avalanchego/github.rs:60-63 | the first accepted round k decides: k+1 fetches, and its tag or the default, whatever later rounds would say |
| Archives.StripConcat | src/avalanchego/github.rs:110-138 | a name built as prefix + tag + suffix gives the tag back when prefix and suffix are stripped |
| Archives.ExtensionFacts | src/avalanchego/github.rs:106-143 | a `.zip` name pairs only with Zip and a `.tar.gz` name only with TarGzip |
| NodeInstaller.NodeArchive | src/avalanchego/github.rs:106-149 | an explicit OS always gives the table's name and never an error; auto-detection picks macOS, then other unix as Linux, then Windows; "unknown platform" happens exactly when there is no OS and no branch matches; the extension always matches the decoder |
| NodeInstaller.NodeFileTableFacts | src/avalanchego/github.rs:127-141 | every explicit-OS name is non-empty and its extension names its decoder |
| NodeInstaller.NodeFileNameRoundTrip | src/avalanchego/github.rs:128-141 | the tag can be read back from every archive name |
| NodeInstaller.UnknownHostArchIsSpliced | src/avalanchego/github.rs:91-135 | an unrecognised host arch on an auto-detected unix host (and likewise with an explicit Linux) yields `avalanchego-linux--{tag}.tar.gz`, not an error |
| NodeInstaller.NodeBinaryPath | src/avalanchego/github.rs:174-180 | the binary is named `avalanchego`, lies strictly below dst, and is absolute exactly when dst is |
| NodeInstaller.NodeBinaryLayout | src/avalanchego/github.rs:174-180 | Zip puts the binary at `dst/build/avalanchego`; TarGzip puts it at `dst/avalanchego-{tag}/avalanchego` |
| NodeInstaller.ZipLayout | src/avalanchego/github.rs:174-175 | a zip archive's binary is `dst/build/avalanchego` |
| NodeInstaller.TarballLayout | src/avalanchego/github.rs:176-180 | a tarball's binary is `dst/avalanchego-{tag}/avalanchego` for a tag without `/` |
| NodeInstaller.NodeUrl | src/avalanchego/github.rs:152-155 | the URL is `https://github.com/ava-labs/avalanchego/releases/download/{tag}/{file}` |
| NodeInstaller.NodeDownload | src/avalanchego/github.rs:29-187 | "unknown platform" exactly when there is no OS and no host branch; success only if the archive at the resolved tag's URL downloaded, unpacked and was made executable; the result is the layout's binary path |
| NodeInstaller.ScratchRemovalIsBestEffort | src/avalanchego/github.rs:163-172 | whether the scratch archive is removed never changes the result |
| NodeInstaller.NodeDownloadSucceeds | src/avalanchego/github.rs:156-186 | when every step succeeds, the binary path is returned |
| NodeInstaller.LinuxAmd64Archive | src/avalanchego/github.rs:113-117 | a unix host gives `avalanchego-linux-amd64-v1.9.16.tar.gz` with TarGzip |
| NodeInstaller.TarballLayoutV1916 | src/avalanchego/github.rs:177-179 | the v1.9.16 tarball holds `avalanchego-v1.9.16/avalanchego` |
| NodeInstaller.LinuxAmd64EndToEnd | src/avalanchego/github.rs:29-186 | a stable v1.9.16 answer in round 0 on an x86_64 Linux host ends at `dst/avalanchego-v1.9.16/avalanchego` |
| SubnetEvmInstaller.TrimLeadingV | src/subnet_evm/github.rs:96 | `trim_start_matches("v")` removes exactly the leading run of `v`s and keeps the rest |
| SubnetEvmInstaller.TrimLeadingVIdempotent | src/subnet_evm/github.rs:104 | trimming twice is trimming once |
| SubnetEvmInstaller.SubnetFileTableFacts | src/subnet_evm/github.rs:113-128 | macOS and Linux give a non-empty TarGzip name ending in `.tar.gz`; Windows gives none |
| SubnetEvmInstaller.SubnetEvmArchive | src/subnet_evm/github.rs:90-137 | explicit Windows gives "windows not supported"; auto-detection accepts only macOS and other unix hosts and otherwise gives "unknown OS"; every name is a gzip tarball |
| SubnetEvmInstaller.SubnetFileNameRoundTrip | src/subnet_evm/github.rs:114-127 | the name carries exactly the tag without its leading `v`s |
| SubnetEvmInstaller.LeadingVOnlyInUrl | src/subnet_evm/github.rs:140-143 | `v0.4.8` and `0.4.8` name the same archive, but the URL keeps the tag as given |
| SubnetEvmInstaller.SubnetEvmBinaryPath | src/subnet_evm/github.rs:162 | the binary is `dst/subnet-evm`, a direct child of the scratch directory, whatever the tag or decoder |
| SubnetEvmInstaller.SubnetEvmDownload | src/subnet_evm/github.rs:20-168 | Windows and host errors come before any download; success only after the download at the resolved tag, the unpack and the chmod, and it returns `dst/subnet-evm` |
| SubnetEvmInstaller.SubnetEvmDownloadSucceeds | src/subnet_evm/github.rs:138-167 | when the archive name, the download, the unpack and the chmod all succeed, the download returns `dst/subnet-evm` |
| SubnetEvmInstaller.SubnetScratchRemovalIsBestEffort | src/subnet_evm/github.rs:151-160 | a failed removal of the scratch archive never changes the result |
| LegacyNodeInstaller.LegacyLayout | src/avalanchego.rs:171-212 | the binary is where the newer installer puts it, and `get_plugins_dir` of the binary is exactly the plugins path returned with it |
| LegacyNodeInstaller.LegacyDownload | src/avalanchego.rs:84-197 | a fetch error propagates unchanged with no retry; no OS and no host branch gives "unknown platform"; success needs the download, the unpack, the scratch removal and the chmod, and returns the (binary, plugins) pair at the fetched tag |
| LegacyNodeInstaller.RemovalFailureIsFatal | src/avalanchego.rs:168-169 | a failed scratch removal fails the download |
| LegacyNodeInstaller.AgreesWithNewerInstaller | src/avalanchego.rs:105-148 | given the same tag explicitly, the newer installer returns the same binary path |
| Paths.Split | src/avalanchego/mod.rs:11-20 | splitting at `/` gives at least one piece and no piece holds `/` |
| Paths.Normalize | src/avalanchego/mod.rs:11-20 | after dropping empty and `.` pieces, every piece left is one of the input pieces, and there are no more pieces than before |
| Paths.Components | src/avalanchego/mod.rs:11-20 | `Path::components` of a string: non-empty, `/`-free names, with `.` only as a leading component |
| Paths.PathOf | src/avalanchego/s3.rs:201 | `Path::new(s)` is absolute exactly when `s` starts with `/`, and has the components of `s` |
| Paths.Parent | src/avalanchego/mod.rs:12 | `parent` is None exactly for a path with no components; otherwise it drops the last one and keeps absoluteness |
| Paths.FileName | src/avalanchego/s3.rs:200-203 | `file_name` is None exactly when the path has no components or its last component is `..` or a lone leading `.` (a `.` elsewhere is not a component, so `a/.` gives `a`); otherwise it is that last component, a non-empty name without `/` |
| Paths.LastIndexOf | src/avalanchego/s3.rs:202 | the last position of a character, None exactly when it does not occur |
| Paths.FileStem | src/avalanchego/s3.rs:202 | `file_stem` is the whole name when it has no `.` or only a leading one; otherwise it is the text before the last `.`; always a prefix of the name, non-empty for a non-empty name, and `/`-free for a `/`-free name |
| Paths.SplitAppend | src/avalanchego/mod.rs:15 | splitting `a/b`, with no `/` in b, is splitting a and then b |
| Paths.NormalizeAppend | src/avalanchego/mod.rs:15 | normalising distributes over concatenation |
| Paths.JoinName | src/avalanchego/mod.rs:15 | joining a plain name appends exactly that one component |
| Paths.ComponentsOfChild | src/avalanchego/s3.rs:134-135 | `dir/name` has the components of dir followed by name |
| Paths.CurDirHasParent | src/avalanchego/mod.rs:12 | `.` and `./` are the one-component path `.`, whose parent is the empty path |
| PluginLayout.CurDirPluginDir | src/avalanchego/mod.rs:11-20 | a binary path of `.` or `./` gives the plugin directory `plugins` |
| PluginLayout.GetPluginDir | src/avalanchego/mod.rs:11-20 | the result is parent(p) joined with "plugins": it has as many components as p, the same parent, and the last component "plugins"; only a path with no components (`/` or `""`) panics, so `.` gives `plugins` |
| PluginLayout.SharedPluginDir | src/avalanchego/mod.rs:12 | binaries with the same parent share one plugin directory |
| PluginLayout.BuildTree | src/avalanchego/mod.rs:6-10 | `dst/build/avalanchego` gives `dst/build/plugins` |
| PluginLayout.RootPanics | src/avalanchego/mod.rs:12 | `/` has no plugin directory (the `unwrap` panics) |
| S3Sync.ListKeys | src/avalanchego/s3.rs:83-92 | the listed keys are exactly the stored keys with the prefix |
| S3Sync.BackoffBounds | src/avalanchego/s3.rs:51 | every store backoff sleep is a multiple of 5 seconds, between 5 and 100 |
| S3Sync.GetAnswer | src/avalanchego/s3.rs:35-53 | a get succeeds exactly when the store answers and the key is stored; retryability is the store's |
| S3Sync.GetObjectRetrying | src/avalanchego/s3.rs:32-65 | the run is the retry loop (20 rounds, 5 s base) over the store's answers for this key: 1 to 20 rounds; success only for a stored key; exhaustion only after 20 retryable faults in a row; a fault-free first call on a stored key succeeds at once |
| S3Sync.GetRunDecided | src/avalanchego/s3.rs:32-65 | after k retryable faults, the first other answer ends the get with k+1 rounds and sleeps 5, ..., 5k; it aborts exactly on a non-retryable fault or a missing key, and succeeds exactly on a clean answer for a stored key |
| S3Sync.FetchObject | src/avalanchego/s3.rs:151-193 | follows the get's retry run: it succeeds exactly when the run succeeds and fails with the non-retryable error exactly when the run aborts; on success the target holds the object's bytes, is executable, and the scratch file is gone; on failure nothing changes; the trace gains the get, its sleeps and the placement |
| S3Sync.PlaceFile | src/avalanchego/s3.rs:67-74 | after copy, scratch removal and chmod 0o777, only the target changed: it holds the data and is executable |
| S3Sync.ListObjectsRetrying | src/avalanchego/s3.rs:80-101 | the run is the retry loop (20 rounds, 5 s base) over the store's list answers: 1 to 20 rounds; exhaustion only after 20 retryable faults; a fault-free first call succeeds |
| S3Sync.ListRunDecided | src/avalanchego/s3.rs:80-101 | after k retryable faults, the first other answer ends the listing with k+1 rounds; it aborts exactly on a non-retryable fault |
| S3Sync.ExtractFilename | src/avalanchego/s3.rs:199-204 | the name is non-empty and has no `/`; it is None (the `unwrap` panics) exactly when the key has no file name |
| S3Sync.ExtractFilenameOfChild | src/avalanchego/s3.rs:199-204 | a key `dir/name.ext` (with no `.` in ext) gives `name`, whatever the directories |
| S3Sync.ExtractFilenameExample | src/avalanchego/s3.rs:199 | "a/b/c/hello.zstd" gives "hello" |
| S3Sync.PlaceholderSuffix | src/avalanchego/s3.rs:129 | for an extracted name, the skip test holds exactly when the name ends with "plugin" |
| S3Sync.WantedEntries | src/avalanchego/s3.rs:126-130 | the i-th listed key is synced exactly when it has a file name that does not end in "plugin" |
| S3Sync.SyncOne | src/avalanchego/s3.rs:126-193 | a placeholder, or a present target without overwrite, is skipped with no event and no file change; a missing file name panics; otherwise the entry is fetched, and on success its target holds the object's bytes and is executable, with no other file changed |
| S3Sync.FetchEntry | src/avalanchego/s3.rs:139-193 | fetching one wanted entry: on success the target holds the bytes and is executable; on failure the error is one of the two get errors and no file changed; a clean first answer for a stored key succeeds |
| S3Sync.SyncPlugins | src/avalanchego/s3.rs:126-196 | the loop only adds gets of wanted entries whose target was absent (or all wanted entries, under overwrite); on success every entry is settled and every fetched target is executable; every file it creates is executable and no file outside the plugin targets changes; with overwrite every wanted entry was fetched; with nothing to do it adds no event; a panic means some entry has no name; a reliable store with stored keys succeeds |
| S3Sync.SyncBinary | src/avalanchego/s3.rs:24-77 | the binary is fetched exactly when it is absent or overwrite is set, and then holds the stored bytes and is executable; otherwise nothing happens |
| S3Sync.ListPluginObjects | src/avalanchego/s3.rs:79-113 | follows the list's retry run: it fails with the non-retryable error exactly when the run aborts and succeeds exactly when it succeeds; it leaves the file system alone and starts with a list call |
| S3Sync.ListingStored | src/avalanchego/s3.rs:92 | every listed key can be fetched |
| S3Sync.SyncBinaryAndList | src/avalanchego/s3.rs:24-113 | binary phase then list phase, in order; without a needed binary only list events occur; a fetched binary holds the stored bytes and is executable, and every created file is executable |
| S3Sync.PrepareSync | src/avalanchego/s3.rs:119-124 | the plugin directory is created, recursively, only if it is absent, and after the list; on success it exists and a fetched binary holds the stored bytes and is executable |
| S3Sync.DownloadAvalancheAndPlugins | src/avalanchego/s3.rs:12-197 | the first call is a binary get exactly when the binary is needed; phases never interleave; every sleep is 5..100 s; the file system only grows (no rollback) and every file it creates is executable; on success the binary (holding the stored bytes when it was fetched and no plugin overwrote it), the directory and every listed plugin are in place, and under overwrite every wanted plugin is executable; with nothing to do it makes no get at all; errors are the five kinds; a reliable store with well-named keys succeeds |
| S3Sync.SyncTwice | src/avalanchego/s3.rs:24-139 | after a successful run, a second run without overwrite starts with a list and issues zero gets |

## Left out

- HTTP is a parameter. This covers `http_manager::get_non_tls`, `download_file` and `reqwest`. The release API is an oracle per round. Archive downloads are a predicate on URLs.
- serde JSON parsing of bytes is a parameter that yields a parsed JSON value or nothing. Two serde details are not modelled: the struct-from-array form, and duplicate keys.
- Archive unpacking (`compress_manager::unpack_directory`) is left out. It is a success flag plus the set of paths it produced.
- Random scratch names (`random_manager::tmp_path`) become the environment's scratch directory, or a counter of fresh scratch ids. Errors from `tmp_path` are not modelled.
- tokio, `sleep` and the `Arc<s3::Manager>` client are left out. Only the attempt counts and the integer delays are kept.
- Logging is left out.
- `set_permissions(0o777)` is a success flag in the installers. In the S3 sync it is membership in an `executable` set.
- Host detection (`env::consts::ARCH`, `env::consts::OS`, `cfg!`) is a `Host` parameter.
- S3Sync.DownloadAvalancheAndPlugins: the local `fs::copy`, `remove_file`, `File::open`, `set_permissions` and `create_dir_all` calls are taken to succeed. An object's `key()` is taken to be present, so its `expect` never fires.
- S3Sync.DownloadAvalancheAndPlugins: a local path is identified by its string, with no normalisation. `create_dir_all` records only the directory itself, not its ancestors.
- Io.Kind: the concrete OS error kinds (`NotFound`, `PermissionDenied`, ...) of propagated errors are not modelled; they are all `Propagated`. `DownloadFailed` covers both the `Other` errors `download_file` raises itself and the file errors it passes on.
- S3Sync.GetAnswer: a `get_object` of a key that is not stored is modelled as a non-retryable error. The store client's real error classification is not part of this model.
- `src/avalanchego.rs` formats `release_info.tag_name`, which `src/lib.rs` types as an `Option`. `LegacyNodeInstaller.LegacyDownload` takes the fetched tag as a plain string, or the fetch's error.
- Installer results are paths compared component by component (`Paths.FsPath`), not the `to_str()` strings the source returns. Rendered strings can differ where a path keeps a `.` component, e.g. a tag containing `/.`.
- The `download_latest` wrappers only pass `None` as the tag to `download`. The model covers them as `NodeDownload`/`SubnetEvmDownload` with no explicit tag.
- Not modelled: the `examples/*.rs` demo programs, and the crate's module-declaration inconsistency (`src/avalanchego.rs` next to `src/avalanchego/mod.rs`).

=== FILE: archives.dfy ===
/** What both installers share once a tag is known: the archive kinds, the
    archive's download URL, and the collaborators of a download (the host,
    the HTTP download, unpacking, scratch cleanup, and `set_permissions`),
    given as an environment of outcomes. */
module Archives {
  import opened Wrappers
  import opened Paths
  import opened Platform
  import opened Resolver

  /** `compress_manager::DirDecoder`, restricted to the two kinds used. */
  datatype Decoder = Zip | TarGzip

  /** `DirDecoder::suffix`. */
  function Suffix(d: Decoder): string {
    match d
    case Zip => "zip"
    case TarGzip => "tar.gz"
  }

  /** A release archive's file name and the decoder that unpacks it. */
  datatype ArchiveSpec = ArchiveSpec(fileName: string, decoder: Decoder)

  /** The decoder agrees with the file name's extension. */
  predicate NameMatchesDecoder(spec: ArchiveSpec) {
    && (spec.decoder == Zip <==> EndsWith(spec.fileName, ".zip"))
    && (spec.decoder == TarGzip <==> EndsWith(spec.fileName, ".tar.gz"))
  }

  /** The GitHub release-asset URL of `fileName` under `tag`. */
  function DownloadUrl(repo: ReleaseRepo, tag: string, fileName: string): string {
    "https://github.com/" + repo.org + "/" + repo.name + "/releases/download/" + tag + "/" + fileName
  }

  /** `mid`, when `s` is `pre + mid + suf`. */
  function Strip(s: string, pre: string, suf: string): (r: Option<string>)
    ensures r.Some? ==> s == pre + r.value + suf
  {
    if |pre| + |suf| <= |s| && s[..|pre|] == pre && s[|s| - |suf|..] == suf then
      assert s == s[..|pre|] + s[|pre|..|s| - |suf|] + s[|s| - |suf|..];
      Some(s[|pre|..|s| - |suf|])
    else None
  }

  lemma StripConcat(pre: string, mid: string, suf: string)
    ensures Strip(pre + mid + suf, pre, suf) == Some(mid)
  {
    var s := pre + mid + suf;
    assert s[..|pre|] == pre;
    assert s[|s| - |suf|..] == suf;
    assert s[|pre|..|s| - |suf|] == mid;
  }

  /** A name ending in ".zip" does not end in ".tar.gz", and conversely. */
  lemma ExtensionFacts(x: string)
    ensures NameMatchesDecoder(ArchiveSpec(x + ".zip", Zip))
    ensures NameMatchesDecoder(ArchiveSpec(x + ".tar.gz", TarGzip))
  {
    var z := x + ".zip";
    var t := x + ".tar.gz";
    assert z[|z| - 4..] == ".zip";
    assert t[|t| - 7..] == ".tar.gz";
    assert z[|z| - 1] == 'p';
    assert t[|t| - 1] == 'z';
    assert |".tar.gz"| <= |z| ==> z[|z| - 7..][6] == z[|z| - 1];
    assert t[|t| - 4..][3] == t[|t| - 1];
  }

  /** The collaborators of one `download` call, as outcomes: the host it runs
      on, which URLs download, whether unpacking succeeds, the fresh scratch
      directory unpacking fills, which paths exist after unpacking, whether
      removing the scratch archive succeeds, and whether `set_permissions`
      succeeds. */
  datatype InstallEnv = InstallEnv(
    host: Host,
    downloadOk: string -> bool,
    scratchDir: FsPath,
    unpackOk: bool,
    unpacked: set<FsPath>,
    removeOk: bool,
    chmodOk: bool)
}

=== FILE: legacy_node_installer.dfy ===
/** The older avalanchego installer of src/avalanchego.rs: one fetch of the
    latest release with no retry or fallback, the same archive table as the
    newer installer, and a (binary, plugins) pair of paths. A failure to
    remove the scratch archive is an error here. */
module LegacyNodeInstaller {
  import opened Wrappers
  import opened Io
  import opened Paths
  import opened Platform
  import opened Releases
  import opened Resolver
  import opened Archives
  import opened NodeInstaller
  import opened PluginLayout

  /** Where the binary and the plugins directory sit in the unpacked tree. */
  function LegacyLayout(dst: FsPath, decoder: Decoder, tag: string): (r: (FsPath, FsPath))
    ensures r.0 == NodeBinaryPath(dst, decoder, tag)
    ensures GetPluginDir(r.0) == Some(r.1)
  {
    var base := if Suffix(decoder) == Suffix(Zip) then Join(dst, "build") else Join(dst, "avalanchego-" + tag);
    assert NoChar("avalanchego", '/') && NoChar("plugins", '/');
    JoinName(base, "avalanchego");
    JoinName(base, "plugins");
    (Join(base, "avalanchego"), Join(base, "plugins"))
  }

  /** `download`. The source formats the fetched record's `tag_name` as a
      plain value; `fetched` is that tag, or the fetch's error. */
  function LegacyDownload(arch: Option<Arch>, os: Option<Os>, fetched: Result<string, Error>, env: InstallEnv)
    : (r: Result<(FsPath, FsPath), Error>)
    ensures fetched.Err? ==> r == Err(fetched.error)
    ensures fetched.Ok? && os.None? && env.host.family == UnknownHost ==> r == Err(UnknownPlatform(env.host.osName))
    ensures r.Ok? ==> env.removeOk && env.unpackOk && env.chmodOk
    ensures r.Ok? ==> r.value.0 in env.unpacked && GetPluginDir(r.value.0) == Some(r.value.1)
    ensures r.Ok? ==> exists spec :: NodeArchive(fetched.value, ResolveArchLabel(arch, env.host.arch), os, env.host) == Ok(spec)
                                  && env.downloadOk(DownloadUrl(NodeRepo, fetched.value, spec.fileName))
                                  && r.value == LegacyLayout(env.scratchDir, spec.decoder, fetched.value)
  {
    var tag :- fetched;
    var spec :- NodeArchive(tag, ResolveArchLabel(arch, env.host.arch), os, env.host);
    if !env.downloadOk(DownloadUrl(NodeRepo, tag, spec.fileName)) then Err(DownloadFailed)
    else if !env.unpackOk then Err(UnpackFailed)
    else if !env.removeOk then Err(RemoveFailed)
    else
      var paths := LegacyLayout(env.scratchDir, spec.decoder, tag);
      if paths.0 !in env.unpacked then Err(OpenFailed)
      else if !env.chmodOk then Err(ChmodFailed)
      else Ok(paths)
  }

  /** Unlike the newer installer, a scratch archive that cannot be removed
      fails the whole download. */
  lemma RemovalFailureIsFatal(arch: Option<Arch>, os: Option<Os>, fetched: Result<string, Error>, env: InstallEnv)
    requires !env.removeOk
    ensures LegacyDownload(arch, os, fetched, env).Err?
  {
  }

  /** Given the same tag explicitly, the newer installer puts the binary in
      the same place. */
  lemma AgreesWithNewerInstaller(arch: Option<Arch>, os: Option<Os>, tag: string,
                                 fetch: nat -> Result<ReleaseResponse, Error>, env: InstallEnv)
    requires tag != "latest"
    requires LegacyDownload(arch, os, Ok(tag), env).Ok?
    ensures NodeDownload(arch, os, Some(tag), fetch, env) == Ok(LegacyDownload(arch, os, Ok(tag), env).value.0)
  {
    var spec := NodeArchive(tag, ResolveArchLabel(arch, env.host.arch), os, env.host).value;
    NodeDownloadSucceeds(arch, os, Some(tag), fetch, env, spec);
  }
}

=== FILE: node_installer.dfy ===
/** The avalanchego installer of src/avalanchego/github.rs: tag resolution,
    the per-platform archive name, the download URL, and where the binary
    sits in the unpacked tree. */
module NodeInstaller {
  import opened Wrappers
  import opened Io
  import opened Paths
  import opened Platform
  import opened Releases
  import opened Resolver
  import opened Archives

  /** The release asset for an explicit OS. The architecture label appears
      only in the Linux name. */
  function NodeFileTable(tag: string, arch: string, os: Os): ArchiveSpec {
    match os
    case MacOs => ArchiveSpec("avalanchego-macos-" + tag + ".zip", Zip)
    case Linux => ArchiveSpec("avalanchego-linux-" + arch + "-" + tag + ".tar.gz", TarGzip)
    case Windows => ArchiveSpec("avalanchego-win-" + tag + "-experimental.zip", Zip)
  }

  /** The OS a host's `cfg!` family selects, if any: macOS, then any other
      unix as Linux, then Windows. */
  function DetectedOs(f: HostFamily): Option<Os> {
    match f
    case MacOsHost => Some(MacOs)
    case OtherUnixHost => Some(Linux)
    case WindowsHost => Some(Windows)
    case UnknownHost => None
  }

  /** The (file name, decoder) pair as the source computes it, with an empty
      name on an unknown host. */
  function NodeArchiveName(tag: string, arch: string, os: Option<Os>, host: Host): ArchiveSpec {
    match os
    case Some(o) => NodeFileTable(tag, arch, o)
    case None =>
      match DetectedOs(host.family)
      case Some(o) => NodeFileTable(tag, arch, o)
      case None => ArchiveSpec("", Zip)
  }

  /** The archive to download, or "unknown platform" when the name is empty. */
  function NodeArchive(tag: string, arch: string, os: Option<Os>, host: Host): (r: Result<ArchiveSpec, Error>)
    ensures r.Err? <==> os.None? && host.family == UnknownHost
    ensures r.Err? ==> r.error == UnknownPlatform(host.osName)
    ensures os.Some? ==> r == Ok(NodeFileTable(tag, arch, os.value))
    ensures os.None? && host.family != UnknownHost ==> r == Ok(NodeFileTable(tag, arch, DetectedOs(host.family).value))
    ensures r.Ok? ==> NameMatchesDecoder(r.value)
  {
    var spec := NodeArchiveName(tag, arch, os, host);
    NodeFileTableFacts(tag, arch, MacOs);
    NodeFileTableFacts(tag, arch, Linux);
    NodeFileTableFacts(tag, arch, Windows);
    if spec.fileName == "" then Err(UnknownPlatform(host.osName)) else Ok(spec)
  }

  /** Every explicit-OS name is non-empty and its extension names its decoder. */
  lemma NodeFileTableFacts(tag: string, arch: string, os: Os)
    ensures NodeFileTable(tag, arch, os).fileName != ""
    ensures NameMatchesDecoder(NodeFileTable(tag, arch, os))
  {
    match os
    case MacOs => ExtensionFacts("avalanchego-macos-" + tag);
    case Linux => ExtensionFacts("avalanchego-linux-" + arch + "-" + tag);
    case Windows =>
      assert "avalanchego-win-" + tag + "-experimental.zip" == ("avalanchego-win-" + tag + "-experimental") + ".zip";
      ExtensionFacts("avalanchego-win-" + tag + "-experimental");
  }

  /** Reads the tag back out of an archive name. */
  function NodeTagFromFileName(name: string, arch: string, os: Os): Option<string> {
    match os
    case MacOs => Strip(name, "avalanchego-macos-", ".zip")
    case Linux => Strip(name, "avalanchego-linux-" + arch + "-", ".tar.gz")
    case Windows => Strip(name, "avalanchego-win-", "-experimental.zip")
  }

  /** Every archive name carries the exact tag: it can be read back. */
  lemma NodeFileNameRoundTrip(tag: string, arch: string, os: Os)
    ensures NodeTagFromFileName(NodeFileTable(tag, arch, os).fileName, arch, os) == Some(tag)
  {
    match os
    case MacOs => StripConcat("avalanchego-macos-", tag, ".zip");
    case Linux =>
      assert "avalanchego-linux-" + arch + "-" + tag + ".tar.gz" == ("avalanchego-linux-" + arch + "-") + tag + ".tar.gz";
      StripConcat("avalanchego-linux-" + arch + "-", tag, ".tar.gz");
    case Windows => StripConcat("avalanchego-win-", tag, "-experimental.zip");
  }

  /** An unrecognised host architecture is not an error: its empty label is
      spliced into the Linux name, whether the OS is detected or explicit. */
  lemma UnknownHostArchIsSpliced(tag: string, host: Host)
    requires host.arch != "x86_64" && host.arch != "aarch64"
    ensures host.family == OtherUnixHost ==>
              (NodeArchive(tag, ResolveArchLabel(None, host.arch), None, host)
               == Ok(ArchiveSpec("avalanchego-linux--" + tag + ".tar.gz", TarGzip)))
    ensures NodeArchive(tag, ResolveArchLabel(None, host.arch), Some(Linux), host)
         == Ok(ArchiveSpec("avalanchego-linux--" + tag + ".tar.gz", TarGzip))
  {
    assert "avalanchego-linux-" + "" + "-" == "avalanchego-linux--";
  }

  /** Where the binary sits in the unpacked tree: zip archives hold
      `build/avalanchego`, tarballs `avalanchego-<tag>/avalanchego`. */
  function NodeBinaryPath(dst: FsPath, decoder: Decoder, tag: string): (r: FsPath)
    ensures r.absolute == dst.absolute
    ensures |dst.parts| < |r.parts| && r.parts[..|dst.parts|] == dst.parts
    ensures r.parts[|r.parts| - 1] == "avalanchego"
  {
    var d := if Suffix(decoder) == Suffix(Zip) then "build" else "avalanchego-" + tag;
    BinaryUnder(dst, d);
    Join(Join(dst, d), "avalanchego")
  }

  /** `avalanchego` inside the relative directory `d` lies under `dst`. */
  lemma BinaryUnder(dst: FsPath, d: string)
    requires |d| > 0 && d[0] != '/'
    ensures Join(Join(dst, d), "avalanchego").absolute == dst.absolute
    ensures |dst.parts| < |Join(Join(dst, d), "avalanchego").parts|
    ensures Join(Join(dst, d), "avalanchego").parts[..|dst.parts|] == dst.parts
    ensures Join(Join(dst, d), "avalanchego").parts[|Join(Join(dst, d), "avalanchego").parts| - 1] == "avalanchego"
  {
    JoinRelative(dst, d);
    assert NoChar("avalanchego", '/');
    JoinName(Join(dst, d), "avalanchego");
  }

  /** The layout rule, component by component, for a tag without `/`. */
  lemma NodeBinaryLayout(dst: FsPath, decoder: Decoder, tag: string)
    requires NoChar(tag, '/')
    ensures decoder == Zip ==> NodeBinaryPath(dst, decoder, tag) == FsPath(dst.absolute, dst.parts + ["build", "avalanchego"])
    ensures decoder == TarGzip ==>
      NodeBinaryPath(dst, decoder, tag) == FsPath(dst.absolute, dst.parts + ["avalanchego-" + tag, "avalanchego"])
  {
    if decoder == Zip {
      ZipLayout(dst, tag);
    } else {
      TarballLayout(dst, tag);
    }
  }

  lemma ZipLayout(dst: FsPath, tag: string)
    ensures NodeBinaryPath(dst, Zip, tag) == FsPath(dst.absolute, dst.parts + ["build", "avalanchego"])
  {
    assert NoChar("build", '/') && "build"[0] == 'b';
    assert NoChar("avalanchego", '/') && "avalanchego"[0] == 'a';
    JoinNames(dst, "build", "avalanchego");
  }

  lemma TarballLayout(dst: FsPath, tag: string)
    requires NoChar(tag, '/')
    ensures NodeBinaryPath(dst, TarGzip, tag) == FsPath(dst.absolute, dst.parts + ["avalanchego-" + tag, "avalanchego"])
  {
    var d := "avalanchego-" + tag;
    assert Suffix(TarGzip) != Suffix(Zip) by { assert |Suffix(TarGzip)| != |Suffix(Zip)|; }
    assert NoChar("avalanchego-", '/');
    NoCharConcat("avalanchego-", tag, '/');
    assert d[0] == 'a';
    assert NoChar("avalanchego", '/') && "avalanchego"[0] == 'a';
    JoinNames(dst, d, "avalanchego");
  }

  /** The download URL as the source spells it out. */
  lemma NodeUrl(tag: string, fileName: string)
    ensures DownloadUrl(NodeRepo, tag, fileName)
         == "https://github.com/ava-labs/avalanchego/releases/download/" + tag + "/" + fileName
  {
    assert "https://github.com/" + NodeRepo.org + "/" + NodeRepo.name + "/releases/download/"
        == "https://github.com/ava-labs/avalanchego/releases/download/";
  }

  /** `download`: resolve the tag (with `fetch(r)` answering round `r` of the
      release API), name the archive, download and unpack it, drop the
      scratch archive on a best-effort basis, then open the binary and make
      it executable. */
  function NodeDownload(arch: Option<Arch>, os: Option<Os>, releaseTag: Option<string>,
                        fetch: nat -> Result<ReleaseResponse, Error>, env: InstallEnv): (r: Result<FsPath, Error>)
    ensures (os.None? && env.host.family == UnknownHost) <==> r == Err(UnknownPlatform(env.host.osName))
    ensures r.Ok? ==> r.value in env.unpacked && env.unpackOk && env.chmodOk
    ensures r.Ok? ==> var tag := ResolveTag(NodeRepo, releaseTag, fetch).tag;
      exists spec :: NodeArchive(tag, ResolveArchLabel(arch, env.host.arch), os, env.host) == Ok(spec)
                  && env.downloadOk(DownloadUrl(NodeRepo, tag, spec.fileName))
                  && r.value == NodeBinaryPath(env.scratchDir, spec.decoder, tag)
  {
    var tag := ResolveTag(NodeRepo, releaseTag, fetch).tag;
    var spec :- NodeArchive(tag, ResolveArchLabel(arch, env.host.arch), os, env.host);
    if !env.downloadOk(DownloadUrl(NodeRepo, tag, spec.fileName)) then Err(DownloadFailed)
    else if !env.unpackOk then Err(UnpackFailed)
    else
      // A failed removal of the scratch archive is only logged: env.removeOk plays no part.
      var bin := NodeBinaryPath(env.scratchDir, spec.decoder, tag);
      if bin !in env.unpacked then Err(OpenFailed)
      else if !env.chmodOk then Err(ChmodFailed)
      else Ok(bin)
  }

  /** Failing to remove the scratch archive never changes the outcome. */
  lemma ScratchRemovalIsBestEffort(arch: Option<Arch>, os: Option<Os>, releaseTag: Option<string>,
                                   fetch: nat -> Result<ReleaseResponse, Error>, env: InstallEnv)
    ensures NodeDownload(arch, os, releaseTag, fetch, env.(removeOk := false))
         == NodeDownload(arch, os, releaseTag, fetch, env.(removeOk := true))
  {
  }

  /** Conversely, when every step succeeds the binary path is returned. */
  lemma NodeDownloadSucceeds(arch: Option<Arch>, os: Option<Os>, releaseTag: Option<string>,
                             fetch: nat -> Result<ReleaseResponse, Error>, env: InstallEnv, spec: ArchiveSpec)
    requires NodeArchive(ResolveTag(NodeRepo, releaseTag, fetch).tag, ResolveArchLabel(arch, env.host.arch), os, env.host) == Ok(spec)
    requires env.downloadOk(DownloadUrl(NodeRepo, ResolveTag(NodeRepo, releaseTag, fetch).tag, spec.fileName))
    requires env.unpackOk && env.chmodOk
    requires NodeBinaryPath(env.scratchDir, spec.decoder, ResolveTag(NodeRepo, releaseTag, fetch).tag) in env.unpacked
    ensures NodeDownload(arch, os, releaseTag, fetch, env)
         == Ok(NodeBinaryPath(env.scratchDir, spec.decoder, ResolveTag(NodeRepo, releaseTag, fetch).tag))
  {
  }

  lemma LinuxAmd64Archive(host: Host)
    requires host.family == OtherUnixHost
    ensures NodeArchive("v1.9.16", "amd64", None, host) == Ok(ArchiveSpec("avalanchego-linux-amd64-v1.9.16.tar.gz", TarGzip))
  {
    assert NodeArchive("v1.9.16", "amd64", None, host) == Ok(NodeFileTable("v1.9.16", "amd64", Linux));
    assert "avalanchego-linux-" + "amd64" + "-" + "v1.9.16" + ".tar.gz" == "avalanchego-linux-amd64-v1.9.16.tar.gz";
  }

  lemma TarballLayoutV1916(dst: FsPath)
    ensures NodeBinaryPath(dst, TarGzip, "v1.9.16") == FsPath(dst.absolute, dst.parts + ["avalanchego-v1.9.16", "avalanchego"])
  {
    assert NoChar("v1.9.16", '/') && "avalanchego-" + "v1.9.16" == "avalanchego-v1.9.16";
    TarballLayout(dst, "v1.9.16");
  }

  /** End to end: the API answers a stable v1.9.16 on its first round, the
      host is Linux on x86_64, and the tarball unpacks as published. */
  lemma LinuxAmd64EndToEnd(fetch: nat -> Result<ReleaseResponse, Error>, env: InstallEnv)
    requires fetch(0) == Ok(ReleaseResponse(Some("v1.9.16"), None, false))
    requires env.host.arch == "x86_64" && env.host.family == OtherUnixHost
    requires env.downloadOk(DownloadUrl(NodeRepo, "v1.9.16", "avalanchego-linux-amd64-v1.9.16.tar.gz"))
    requires env.unpackOk && env.chmodOk
    requires FsPath(env.scratchDir.absolute, env.scratchDir.parts + ["avalanchego-v1.9.16", "avalanchego"]) in env.unpacked
    ensures NodeDownload(None, None, None, fetch, env)
         == Ok(FsPath(env.scratchDir.absolute, env.scratchDir.parts + ["avalanchego-v1.9.16", "avalanchego"]))
  {
    FirstAcceptedWins(NodeRepo, fetch, 0);
    assert ResolveTag(NodeRepo, None, fetch).tag == "v1.9.16";
    assert ResolveArchLabel(None, env.host.arch) == "amd64";
    var spec := ArchiveSpec("avalanchego-linux-amd64-v1.9.16.tar.gz", TarGzip);
    LinuxAmd64Archive(env.host);
    TarballLayoutV1916(env.scratchDir);
    NodeDownloadSucceeds(None, None, None, fetch, env, spec);
  }
}

=== FILE: paths.dfy ===
/** Paths as Rust's `std::path::Path` sees them on a unix host: an optional
    root and a sequence of components. Empty components (from repeated or
    trailing `/`) and `.` components are dropped when a string is read as a
    path, except a `.` that begins a relative path, which Rust keeps as its
    `CurDir` component. */
module Paths {
  import opened Wrappers

  datatype FsPath = FsPath(absolute: bool, parts: seq<string>)

  predicate NoChar(s: string, c: char) {
    forall i :: 0 <= i < |s| ==> s[i] != c
  }

  lemma NoCharConcat(a: string, b: string, c: char)
    requires NoChar(a, c) && NoChar(b, c)
    ensures NoChar(a + b, c)
  {
  }

  predicate EndsWith(s: string, suffix: string) {
    |suffix| <= |s| && s[|s| - |suffix|..] == suffix
  }

  /** `s` split at every `sep`; `k` separators give `k + 1` pieces. */
  function Split(s: string, sep: char): (r: seq<string>)
    ensures |r| >= 1
    ensures forall i :: 0 <= i < |r| ==> NoChar(r[i], sep)
    decreases |s|
  {
    if |s| == 0 then [""]
    else
      var init := Split(s[..|s| - 1], sep);
      if s[|s| - 1] == sep then init + [""]
      else init[..|init| - 1] + [init[|init| - 1] + [s[|s| - 1]]]
  }

  /** The pieces that are path components: not empty and not `.`. */
  function Normalize(pieces: seq<string>): (r: seq<string>)
    ensures |r| <= |pieces|
    ensures forall i :: 0 <= i < |r| ==> r[i] != "" && r[i] != "." && r[i] in pieces
  {
    if |pieces| == 0 then []
    else
      var rest := Normalize(pieces[1..]);
      if pieces[0] == "" || pieces[0] == "." then rest else [pieces[0]] + rest
  }

  /** The components of a path string: a leading `.` of a relative path is
      kept, every other `.` and empty piece is dropped. */
  function Components(s: string): (r: seq<string>)
    ensures forall i :: 0 <= i < |r| ==> r[i] != "" && NoChar(r[i], '/')
    ensures forall i :: 0 < i < |r| ==> r[i] != "."
  {
    var pieces := Split(s, '/');
    if pieces[0] == "." then
      assert forall i :: 0 <= i < |pieces[1..]| ==> pieces[1..][i] == pieces[i + 1];
      ["."] + Normalize(pieces[1..])
    else Normalize(pieces)
  }

  /** The components `s` contributes when pushed onto a non-empty path: a
      leading `.` is then in the middle of the path and is dropped too. */
  function InnerComponents(s: string): (r: seq<string>)
    ensures forall i :: 0 <= i < |r| ==> r[i] != "" && r[i] != "." && NoChar(r[i], '/')
  {
    Normalize(Split(s, '/'))
  }

  /** `Path::join`: an absolute argument replaces the base, and joining onto
      the empty path gives the argument itself. */
  function Join(base: FsPath, s: string): FsPath {
    if |s| > 0 && s[0] == '/' then FsPath(true, Components(s))
    else if base == FsPath(false, []) then FsPath(false, Components(s))
    else FsPath(base.absolute, base.parts + InnerComponents(s))
  }

  /** A path string read on its own, as `Path::new` does. */
  function PathOf(s: string): (r: FsPath)
    ensures r.absolute <==> |s| > 0 && s[0] == '/'
    ensures r.parts == Components(s)
  {
    Join(FsPath(false, []), s)
  }

  /** `Path::parent`: `None` for the root or the empty path. */
  function Parent(p: FsPath): (r: Option<FsPath>)
    ensures r.None? <==> |p.parts| == 0
    ensures r.Some? ==> r.value.absolute == p.absolute && r.value.parts + [p.parts[|p.parts| - 1]] == p.parts
  {
    if |p.parts| == 0 then None else Some(FsPath(p.absolute, p.parts[..|p.parts| - 1]))
  }

  /** `Path::file_name`: the last component, unless it is `..` or the
      leading `.`, or the path has no component at all. */
  function FileName(s: string): (r: Option<string>)
    ensures r.Some? ==> r.value != "" && r.value != "." && r.value != ".." && NoChar(r.value, '/')
    ensures r.None? <==> |Components(s)| == 0 || Components(s)[|Components(s)| - 1] in {"..", "."}
    ensures r.Some? ==> r.value == Components(s)[|Components(s)| - 1]
  {
    var c := Components(s);
    if |c| == 0 || c[|c| - 1] == ".." || c[|c| - 1] == "." then None
    else Some(c[|c| - 1])
  }

  /** The position of the last `c` in `s`, if any. */
  function LastIndexOf(s: string, c: char): (r: Option<nat>)
    ensures r.None? <==> NoChar(s, c)
    ensures r.Some? ==> r.value < |s| && s[r.value] == c && NoChar(s[r.value + 1..], c)
    decreases |s|
  {
    if |s| == 0 then None
    else if s[|s| - 1] == c then Some(|s| - 1)
    else
      var r := LastIndexOf(s[..|s| - 1], c);
      if r.Some? then assert s[r.value + 1..] == s[..|s| - 1][r.value + 1..] + [s[|s| - 1]]; r else r
  }

  /** `OsStr` stem of a file name: everything before the last `.`, unless the
      only `.` is the leading one (or there is none). */
  function FileStem(name: string): (r: string)
    ensures |r| <= |name| && r == name[..|r|]
    ensures |name| > 0 ==> |r| > 0
    ensures NoChar(name, '/') ==> NoChar(r, '/')
    ensures NoChar(name, '.') ==> r == name
    ensures |name| > 0 && name[0] == '.' && NoChar(name[1..], '.') ==> r == name
    ensures name != ".." && LastIndexOf(name, '.').Some? && LastIndexOf(name, '.').value > 0 ==>
              |r| == LastIndexOf(name, '.').value
    ensures r != name ==> 0 < |r| < |name| && name[|r|] == '.' && NoChar(name[|r| + 1..], '.')
  {
    if name == ".." then name
    else match LastIndexOf(name, '.')
      case None => name
      case Some(i) => if i == 0 then name else name[..i]
  }

  /** Splitting a string without separators gives the string itself. */
  lemma {:induction false} SplitNoSep(s: string, sep: char)
    requires NoChar(s, sep)
    ensures Split(s, sep) == [s]
    decreases |s|
  {
    if |s| > 0 {
      SplitNoSep(s[..|s| - 1], sep);
      assert s[..|s| - 1] + [s[|s| - 1]] == s;
    }
  }

  /** Splitting `a + sep + b` (with no separator in `b`) splits `a` and then
      yields `b` as the last piece. */
  lemma {:induction false} SplitAppend(a: string, sep: char, b: string)
    requires NoChar(b, sep)
    ensures Split(a + [sep] + b, sep) == Split(a, sep) + [b]
    decreases |b|
  {
    var s := a + [sep] + b;
    if |b| == 0 {
      assert s[..|s| - 1] == a;
    } else {
      var b' := b[..|b| - 1];
      assert s[..|s| - 1] == a + [sep] + b';
      SplitAppend(a, sep, b');
      assert b' + [b[|b| - 1]] == b;
    }
  }

  lemma {:induction false} NormalizeAppend(a: seq<string>, b: seq<string>)
    ensures Normalize(a + b) == Normalize(a) + Normalize(b)
    decreases |a|
  {
    if |a| > 0 {
      assert (a + b)[1..] == a[1..] + b;
      NormalizeAppend(a[1..], b);
    } else {
      assert a + b == b;
    }
  }

  /** A single name without `/` reads as a path of exactly that component. */
  lemma ComponentsOfName(name: string)
    requires NoChar(name, '/') && name != "" && name != "."
    ensures Components(name) == [name] && InnerComponents(name) == [name]
  {
    SplitNoSep(name, '/');
    assert Normalize([name]) == [name] + Normalize([]);
  }

  /** Joining a single name appends it as one component. */
  lemma JoinName(base: FsPath, name: string)
    requires NoChar(name, '/') && name != "" && name != "."
    ensures Join(base, name) == FsPath(base.absolute, base.parts + [name])
  {
    ComponentsOfName(name);
    assert name[0] != '/';
  }

  /** Joining a relative string keeps the base as a prefix. */
  lemma JoinRelative(base: FsPath, s: string)
    requires |s| > 0 && s[0] != '/'
    ensures Join(base, s).absolute == base.absolute
    ensures Join(base, s).parts[..|base.parts|] == base.parts
  {
  }

  /** Joining two single names appends them as two components. */
  lemma JoinNames(base: FsPath, a: string, b: string)
    requires NoChar(a, '/') && a != "" && a != "."
    requires NoChar(b, '/') && b != "" && b != "."
    ensures Join(Join(base, a), b) == FsPath(base.absolute, base.parts + [a, b])
  {
    JoinName(base, a);
    JoinName(Join(base, a), b);
    assert base.parts + [a] + [b] == base.parts + [a, b];
  }

  /** The components of `dir + "/" + name` are those of `dir` followed by `name`. */
  lemma ComponentsOfChild(dir: string, name: string)
    requires NoChar(name, '/') && name != "" && name != "."
    ensures Components(dir + "/" + name) == Components(dir) + [name]
  {
    assert dir + "/" + name == dir + ['/'] + name;
    SplitAppend(dir, '/', name);
    var pieces := Split(dir, '/');
    assert Normalize([name]) == [name] + Normalize([]);
    if pieces[0] == "." {
      assert (pieces + [name])[1..] == pieces[1..] + [name];
      NormalizeAppend(pieces[1..], [name]);
    } else {
      NormalizeAppend(pieces, [name]);
    }
  }

  /** `Path::new(".")` and `Path::new("./")` are the current directory: one
      component, whose parent is the empty path. */
  lemma CurDirHasParent()
    ensures PathOf(".") == FsPath(false, ["."]) && PathOf("./") == FsPath(false, ["."])
    ensures Parent(PathOf(".")) == Some(FsPath(false, []))
  {
    assert Split(".", '/') == ["."] by {
      SplitNoSep(".", '/');
    }
    assert "./" == "." + ['/'] + "";
    SplitAppend(".", '/', "");
    assert Split("./", '/') == [".", ""];
    assert Normalize([""]) == Normalize([]);
  }

  /** The last `c` of `a + [c] + b`, when `b` has none, is the one added. */
  lemma {:induction false} LastIndexOfAppend(a: string, c: char, b: string)
    requires NoChar(b, c)
    ensures LastIndexOf(a + [c] + b, c) == Some(|a|)
    decreases |b|
  {
    var s := a + [c] + b;
    if |b| > 0 {
      assert s[..|s| - 1] == a + [c] + b[..|b| - 1];
      LastIndexOfAppend(a, c, b[..|b| - 1]);
    } else {
      assert s[|s| - 1] == c;
    }
  }
}

=== FILE: platform.dfy ===
/** The release "arch" and "os" of an artifact, their display labels and
    parsers, and the host facts the installer reads from its environment.
    The three source files that declare `Arch` and `Os` declare them
    identically; this module is the one shared definition. */
module Platform {
  import opened Wrappers
  import opened Io

  datatype Arch = Amd64 | Arm64

  datatype Os = MacOs | Linux | Windows

  /** `impl Display for Arch`. */
  function ArchLabel(a: Arch): string {
    match a
    case Amd64 => "amd64"
    case Arm64 => "arm64"
  }

  /** `impl Display for Os`. */
  function OsLabel(o: Os): string {
    match o
    case MacOs => "macos"
    case Linux => "linux"
    case Windows => "win"
  }

  /** `Arch::new`: accepts exactly the two display labels. */
  function ParseArch(s: string): (r: Result<Arch, Error>)
    ensures r.Ok? <==> s == "amd64" || s == "arm64"
    ensures r.Ok? ==> ArchLabel(r.value) == s
    ensures r.Err? ==> r.error == UnknownArch(s) && Kind(r.error) == Some(InvalidInput)
  {
    if s == "amd64" then Ok(Amd64)
    else if s == "arm64" then Ok(Arm64)
    else Err(UnknownArch(s))
  }

  /** `Os::new`: accepts exactly the three display labels. */
  function ParseOs(s: string): (r: Result<Os, Error>)
    ensures r.Ok? <==> s == "macos" || s == "linux" || s == "win"
    ensures r.Ok? ==> OsLabel(r.value) == s
    ensures r.Err? ==> r.error == UnknownOs(s) && Kind(r.error) == Some(InvalidInput)
  {
    if s == "macos" then Ok(MacOs)
    else if s == "linux" then Ok(Linux)
    else if s == "win" then Ok(Windows)
    else Err(UnknownOs(s))
  }

  /** Parsing a displayed architecture gives it back. */
  lemma ArchRoundTrip(a: Arch)
    ensures ParseArch(ArchLabel(a)) == Ok(a)
  {
  }

  /** Parsing a displayed OS gives it back. */
  lemma OsRoundTrip(o: Os)
    ensures ParseOs(OsLabel(o)) == Ok(o)
  {
  }

  /** The display labels are pairwise distinct, so display is injective. */
  lemma LabelsInjective(a: Arch, b: Arch, o: Os, p: Os)
    ensures ArchLabel(a) == ArchLabel(b) ==> a == b
    ensures OsLabel(o) == OsLabel(p) ==> o == p
  {
    ArchRoundTrip(a);
    ArchRoundTrip(b);
    OsRoundTrip(o);
    OsRoundTrip(p);
  }

  /** Which of the source's `cfg!` branches the compile target takes:
      `target_os = "macos"` is tested first, then `unix`, then `windows`. */
  datatype HostFamily = MacOsHost | OtherUnixHost | WindowsHost | UnknownHost

  /** The host facts the installer reads: `env::consts::ARCH`, the `cfg!`
      family, and `env::consts::OS` (used only in an error message). */
  datatype Host = Host(arch: string, family: HostFamily, osName: string)

  /** The architecture label spliced into file names: the explicit one, or
      the host's mapped to a release label, or "" for any other host. */
  function ResolveArchLabel(arch: Option<Arch>, hostArch: string): (r: string)
    ensures arch.Some? ==> ParseArch(r) == Ok(arch.value)
    ensures arch.None? ==> (r == "" <==> hostArch != "x86_64" && hostArch != "aarch64")
    ensures arch.None? && r != "" ==> ParseArch(r).Ok?
    ensures arch.None? ==> (r == "amd64" <==> hostArch == "x86_64")
  {
    match arch
    case Some(a) => ArchLabel(a)
    case None =>
      if hostArch == "x86_64" then "amd64"
      else if hostArch == "aarch64" then "arm64"
      else ""
  }
}

=== FILE: plugin_layout.dfy ===
/** `get_plugin_dir` of src/avalanchego/mod.rs (and its twin
    `get_plugins_dir` of src/avalanchego.rs): the `plugins` directory that
    sits next to an avalanchego binary.

      build
        ├── avalanchego
        └── plugins
*/
module PluginLayout {
  import opened Wrappers
  import opened Paths

  /** `None` stands for the panic of `parent().unwrap()` on a path without
      a parent, such as `/`. */
  function GetPluginDir(bin: FsPath): (r: Option<FsPath>)
    ensures r.None? <==> |bin.parts| == 0
    ensures r.Some? ==> |r.value.parts| == |bin.parts| && r.value.parts[|r.value.parts| - 1] == "plugins"
    ensures r.Some? ==> Parent(r.value) == Parent(bin)
  {
    match Parent(bin)
    case None => None
    case Some(dir) =>
      assert NoChar("plugins", '/');
      ComponentsOfName("plugins");
      Some(Join(dir, "plugins"))
  }

  /** Binaries in one directory share one plugin directory. */
  lemma SharedPluginDir(a: FsPath, b: FsPath)
    requires Parent(a) == Parent(b)
    ensures GetPluginDir(a) == GetPluginDir(b)
  {
  }

  /** The tree in the doc comment: `<dst>/build/avalanchego` has its plugins
      in `<dst>/build/plugins`. */
  lemma BuildTree(dst: FsPath)
    ensures GetPluginDir(FsPath(dst.absolute, dst.parts + ["build", "avalanchego"]))
         == Some(FsPath(dst.absolute, dst.parts + ["build", "plugins"]))
  {
    var bin := FsPath(dst.absolute, dst.parts + ["build", "avalanchego"]);
    assert bin.parts[..|bin.parts| - 1] == dst.parts + ["build"];
    assert NoChar("plugins", '/');
    ComponentsOfName("plugins");
    assert dst.parts + ["build"] + ["plugins"] == dst.parts + ["build", "plugins"];
  }

  /** A binary path of `.` or `./` is the current directory, whose parent is
      the empty path, so its plugin directory is the relative `plugins`. */
  lemma CurDirPluginDir()
    ensures GetPluginDir(PathOf(".")) == Some(FsPath(false, ["plugins"]))
    ensures GetPluginDir(PathOf("./")) == Some(FsPath(false, ["plugins"]))
  {
    CurDirHasParent();
    PluginDirOfCurDir();
  }

  lemma PluginDirOfCurDir()
    ensures GetPluginDir(FsPath(false, ["."])) == Some(FsPath(false, ["plugins"]))
  {
    assert NoChar("plugins", '/');
    JoinName(FsPath(false, []), "plugins");
  }

  /** The root has no parent, so asking for its plugin directory panics. */
  lemma RootPanics()
    ensures GetPluginDir(FsPath(true, [])) == None
  {
  }
}

=== FILE: releases.dfy ===
/** The release API records (`ReleaseResponse` in src/github.rs and the older
    `GithubResponse` in src/lib.rs), how a JSON body decodes into them under
    serde's rules for their field types, and `fetch_latest_release`. */
module Releases {
  import opened Wrappers
  import opened Io
  import opened Paths

  /** A parsed JSON value. */
  datatype Json =
    | JNull
    | JBool(b: bool)
    | JNumber(n: int)
    | JString(s: string)
    | JArray(items: seq<Json>)
    | JObject(fields: map<string, Json>)

  datatype Asset = Asset(name: string, browserDownloadUrl: string)

  /** `tag_name` and `assets` are optional; `prerelease` defaults to false. */
  datatype ReleaseResponse = ReleaseResponse(tagName: Option<string>, assets: Option<seq<Asset>>, prerelease: bool)

  /** The older record: `assets` is a required list. */
  datatype GithubResponse = GithubResponse(tagName: Option<string>, assets: seq<Asset>, prerelease: bool)

  /** `ReleaseResponse::default()`. */
  const DefaultRelease := ReleaseResponse(None, None, false)

  /** `GithubResponse::default()`. */
  const DefaultGithub := GithubResponse(None, [], false)

  /** What one HTTP GET of the endpoint produced: a transport failure, or a
      body that is or is not well-formed JSON. */
  datatype HttpReply = HttpFailed | HttpBody(parsed: Option<Json>)

  function Field(j: map<string, Json>, name: string): Option<Json> {
    if name in j then Some(j[name]) else None
  }

  /** `Option<String>`: a missing field or `null` is `None`. */
  function DecodeOptString(f: Option<Json>): (r: Result<Option<string>, Error>)
    ensures r.Ok? <==> f.None? || f.value.JNull? || f.value.JString?
    ensures r.Ok? && r.value.Some? ==> f == Some(JString(r.value.value))
    ensures f.Some? && f.value.JString? ==> r == Ok(Some(f.value.s))
    ensures r.Err? ==> r.error == DecodeFailed
  {
    match f
    case None => Ok(None)
    case Some(JNull) => Ok(None)
    case Some(JString(s)) => Ok(Some(s))
    case Some(_) => Err(DecodeFailed)
  }

  /** A required `String`. */
  function DecodeString(f: Option<Json>): (r: Result<string, Error>)
    ensures r.Ok? <==> f.Some? && f.value.JString?
    ensures r.Ok? ==> f == Some(JString(r.value))
    ensures r.Err? ==> r.error == DecodeFailed
  {
    match f
    case Some(JString(s)) => Ok(s)
    case _ => Err(DecodeFailed)
  }

  /** `#[serde(default)] bool`: only a missing field defaults (to false). */
  function DecodeBoolOrFalse(f: Option<Json>): (r: Result<bool, Error>)
    ensures r.Ok? <==> f.None? || f.value.JBool?
    ensures f.None? ==> r == Ok(false)
    ensures f.Some? && f.value.JBool? ==> r == Ok(f.value.b)
    ensures r.Err? ==> r.error == DecodeFailed
  {
    match f
    case None => Ok(false)
    case Some(JBool(b)) => Ok(b)
    case Some(_) => Err(DecodeFailed)
  }

  /** An `Asset`: an object whose `name` and `browser_download_url` are strings. */
  function DecodeAsset(j: Json): (r: Result<Asset, Error>)
    ensures r.Ok? <==> j.JObject? && DecodeString(Field(j.fields, "name")).Ok?
                       && DecodeString(Field(j.fields, "browser_download_url")).Ok?
    ensures r.Err? ==> r.error == DecodeFailed
    ensures r.Ok? ==> j.JObject? && Field(j.fields, "name") == Some(JString(r.value.name))
                      && Field(j.fields, "browser_download_url") == Some(JString(r.value.browserDownloadUrl))
  {
    match j
    case JObject(fs) =>
      var name :- DecodeString(Field(fs, "name"));
      var url :- DecodeString(Field(fs, "browser_download_url"));
      Ok(Asset(name, url))
    case _ => Err(DecodeFailed)
  }

  /** A `Vec<Asset>`: every element must decode. */
  function DecodeAssets(items: seq<Json>): (r: Result<seq<Asset>, Error>)
    ensures r.Ok? <==> forall i :: 0 <= i < |items| ==> DecodeAsset(items[i]).Ok?
    ensures r.Err? ==> r.error == DecodeFailed
    ensures r.Ok? ==> |r.value| == |items| && forall i :: 0 <= i < |items| ==> r.value[i] == DecodeAsset(items[i]).value
  {
    if |items| == 0 then Ok([])
    else
      var first :- DecodeAsset(items[0]);
      var rest :- DecodeAssets(items[1..]);
      Ok([first] + rest)
  }

  /** `Option<Vec<Asset>>`: a missing field or `null` is `None`. */
  function DecodeOptAssets(f: Option<Json>): (r: Result<Option<seq<Asset>>, Error>)
    ensures (f.None? || f == Some(JNull)) ==> r == Ok(None)
    ensures r.Err? ==> r.error == DecodeFailed
    ensures r.Ok? && r.value.Some? ==> f.Some? && f.value.JArray?
    ensures f.Some? && f.value.JArray? ==>
              (r.Ok? <==> DecodeAssets(f.value.items).Ok?) &&
              (r.Ok? ==> r.value == Some(DecodeAssets(f.value.items).value))
    ensures f.Some? && !f.value.JNull? && !f.value.JArray? ==> r.Err?
  {
    match f
    case None => Ok(None)
    case Some(JNull) => Ok(None)
    case Some(JArray(items)) =>
      var assets :- DecodeAssets(items);
      Ok(Some(assets))
    case Some(_) => Err(DecodeFailed)
  }

  /** serde's decoding of `ReleaseResponse`; unknown fields are ignored. */
  function DecodeRelease(j: Json): (r: Result<ReleaseResponse, Error>)
    ensures r.Err? ==> r.error == DecodeFailed
    ensures r.Ok? <==> j.JObject? && DecodeOptString(Field(j.fields, "tag_name")).Ok?
                       && DecodeOptAssets(Field(j.fields, "assets")).Ok?
                       && DecodeBoolOrFalse(Field(j.fields, "prerelease")).Ok?
    ensures r.Ok? ==> r.value.tagName == DecodeOptString(Field(j.fields, "tag_name")).value
    ensures r.Ok? ==> r.value.assets == DecodeOptAssets(Field(j.fields, "assets")).value
    ensures r.Ok? ==> (r.value.prerelease <==> Field(j.fields, "prerelease") == Some(JBool(true)))
    ensures r.Ok? && "tag_name" !in j.fields ==> r.value.tagName.None?
    ensures r.Ok? && "assets" !in j.fields ==> r.value.assets.None?
  {
    match j
    case JObject(fs) =>
      var tag :- DecodeOptString(Field(fs, "tag_name"));
      var assets :- DecodeOptAssets(Field(fs, "assets"));
      var pre :- DecodeBoolOrFalse(Field(fs, "prerelease"));
      Ok(ReleaseResponse(tag, assets, pre))
    case _ => Err(DecodeFailed)
  }

  /** serde's decoding of `GithubResponse`: `assets` must be present and a list. */
  function DecodeGithub(j: Json): (r: Result<GithubResponse, Error>)
    ensures r.Err? ==> r.error == DecodeFailed
    ensures r.Ok? <==> j.JObject? && DecodeOptString(Field(j.fields, "tag_name")).Ok?
                       && "assets" in j.fields && j.fields["assets"].JArray?
                       && DecodeAssets(j.fields["assets"].items).Ok?
                       && DecodeBoolOrFalse(Field(j.fields, "prerelease")).Ok?
    ensures r.Ok? ==> r.value.tagName == DecodeOptString(Field(j.fields, "tag_name")).value
    ensures r.Ok? ==> r.value.assets == DecodeAssets(j.fields["assets"].items).value
    ensures r.Ok? ==> (r.value.prerelease <==> Field(j.fields, "prerelease") == Some(JBool(true)))
    ensures r.Ok? && "tag_name" !in j.fields ==> r.value.tagName.None?
  {
    match j
    case JObject(fs) =>
      var tag :- DecodeOptString(Field(fs, "tag_name"));
      var assets :- match Field(fs, "assets")
        case Some(JArray(items)) => DecodeAssets(items)
        case _ => Err(DecodeFailed);
      var pre :- DecodeBoolOrFalse(Field(fs, "prerelease"));
      Ok(GithubResponse(tag, assets, pre))
    case _ => Err(DecodeFailed)
  }

  /** serde's derived `Serialize`: every field is written, and `None` as `null`. */
  function EncodeAsset(a: Asset): Json {
    JObject(map["name" := JString(a.name), "browser_download_url" := JString(a.browserDownloadUrl)])
  }

  function EncodeAssets(assets: seq<Asset>): (r: seq<Json>)
    ensures |r| == |assets| && forall i :: 0 <= i < |r| ==> r[i] == EncodeAsset(assets[i])
  {
    seq(|assets|, i requires 0 <= i < |assets| => EncodeAsset(assets[i]))
  }

  function EncodeOptString(o: Option<string>): Json {
    if o.Some? then JString(o.value) else JNull
  }

  function EncodeRelease(r: ReleaseResponse): Json {
    JObject(map["tag_name" := EncodeOptString(r.tagName),
                "assets" := (if r.assets.Some? then JArray(EncodeAssets(r.assets.value)) else JNull),
                "prerelease" := JBool(r.prerelease)])
  }

  function EncodeGithub(g: GithubResponse): Json {
    JObject(map["tag_name" := EncodeOptString(g.tagName),
                "assets" := JArray(EncodeAssets(g.assets)),
                "prerelease" := JBool(g.prerelease)])
  }

  lemma AssetRoundTrip(a: Asset)
    ensures DecodeAsset(EncodeAsset(a)) == Ok(a)
  {
    var fs := EncodeAsset(a).fields;
    assert Field(fs, "name") == Some(JString(a.name));
    assert Field(fs, "browser_download_url") == Some(JString(a.browserDownloadUrl));
  }

  lemma AssetsRoundTrip(assets: seq<Asset>)
    ensures DecodeAssets(EncodeAssets(assets)) == Ok(assets)
  {
    var items := EncodeAssets(assets);
    forall i | 0 <= i < |items|
      ensures DecodeAsset(items[i]) == Ok(assets[i])
    {
      AssetRoundTrip(assets[i]);
    }
    var r := DecodeAssets(items);
    assert r.Ok?;
    assert forall i :: 0 <= i < |assets| ==> r.value[i] == assets[i];
    assert r.value == assets;
  }

  /** What the record serializes to decodes back to the same record. */
  lemma ReleaseRoundTrip(r: ReleaseResponse)
    ensures DecodeRelease(EncodeRelease(r)) == Ok(r)
  {
    var fs := EncodeRelease(r).fields;
    assert Field(fs, "tag_name") == Some(EncodeOptString(r.tagName));
    assert Field(fs, "prerelease") == Some(JBool(r.prerelease));
    if r.assets.Some? {
      assert Field(fs, "assets") == Some(JArray(EncodeAssets(r.assets.value)));
      AssetsRoundTrip(r.assets.value);
    } else {
      assert Field(fs, "assets") == Some(JNull);
    }
  }

  lemma GithubRoundTrip(g: GithubResponse)
    ensures DecodeGithub(EncodeGithub(g)) == Ok(g)
  {
    var fs := EncodeGithub(g).fields;
    assert Field(fs, "tag_name") == Some(EncodeOptString(g.tagName));
    assert Field(fs, "prerelease") == Some(JBool(g.prerelease));
    assert fs["assets"] == JArray(EncodeAssets(g.assets));
    AssetsRoundTrip(g.assets);
  }

  /** An empty object decodes to the default `ReleaseResponse`: missing
      fields are tolerated, not treated as malformed. */
  lemma EmptyObjectIsDefaultRelease()
    ensures DecodeRelease(JObject(map[])) == Ok(DefaultRelease)
  {
  }

  /** For the older record an empty object is an error (assets is required),
      while an empty asset list gives its default. */
  lemma GithubNeedsAssets()
    ensures DecodeGithub(JObject(map[])).Err?
    ensures DecodeGithub(JObject(map["assets" := JArray([])])) == Ok(DefaultGithub)
  {
  }

  /** A `null` prerelease is an error: serde's default covers only a missing field. */
  lemma NullPrereleaseRejected(tag: string)
    ensures DecodeRelease(JObject(map["tag_name" := JString(tag), "prerelease" := JNull])).Err?
  {
  }

  const ApiPrefix := "https://api.github.com/repos/"
  const LatestSuffix := "/releases/latest"

  /** The release API endpoint of `org/repo`. */
  function Endpoint(org: string, repo: string): string {
    ApiPrefix + org + "/" + repo + LatestSuffix
  }

  /** Different repositories (names without `/`) have different endpoints. */
  lemma EndpointInjective(org1: string, repo1: string, org2: string, repo2: string)
    requires NoChar(org1, '/') && NoChar(org2, '/')
    requires Endpoint(org1, repo1) == Endpoint(org2, repo2)
    ensures org1 == org2 && repo1 == repo2
  {
    var e := Endpoint(org1, repo1);
    var p := |ApiPrefix|;
    var q := |LatestSuffix|;
    assert |e| == p + |org1| + 1 + |repo1| + q;
    assert e[p..|e| - q] == org1 + "/" + repo1;
    assert Endpoint(org2, repo2)[p..|e| - q] == org2 + "/" + repo2;
    SlashSplitUnique(org1, repo1, org2, repo2);
  }

  /** The position of the first `/` in `s` (or `|s|` if there is none). */
  function FirstSlash(s: string): nat {
    if |s| == 0 || s[0] == '/' then 0 else 1 + FirstSlash(s[1..])
  }

  lemma {:induction false} FirstSlashAfter(a: string, b: string)
    requires NoChar(a, '/')
    ensures FirstSlash(a + "/" + b) == |a|
    decreases |a|
  {
    if |a| > 0 {
      assert (a + "/" + b)[1..] == a[1..] + "/" + b;
      FirstSlashAfter(a[1..], b);
    }
  }

  lemma SlashSplitUnique(a1: string, b1: string, a2: string, b2: string)
    requires NoChar(a1, '/') && NoChar(a2, '/')
    requires a1 + "/" + b1 == a2 + "/" + b2
    ensures a1 == a2 && b1 == b2
  {
    var s := a1 + "/" + b1;
    FirstSlashAfter(a1, b1);
    FirstSlashAfter(a2, b2);
    assert a1 == s[..|a1|] == a2;
    assert b1 == s[|a1| + 1..] == b2;
  }

  /** `fetch_latest_release`: one GET of the endpoint, then decoding; any
      failure is an error, never a default response. */
  function FetchLatestRelease(org: string, repo: string, get: string -> HttpReply): (r: Result<ReleaseResponse, Error>)
    ensures get(Endpoint(org, repo)).HttpFailed? ==> r == Err(FetchFailed)
    ensures get(Endpoint(org, repo)) == HttpBody(None) ==> r == Err(DecodeFailed)
    ensures r.Ok? <==> get(Endpoint(org, repo)).HttpBody? && get(Endpoint(org, repo)).parsed.Some?
                       && DecodeRelease(get(Endpoint(org, repo)).parsed.value).Ok?
    ensures r.Ok? ==> r == DecodeRelease(get(Endpoint(org, repo)).parsed.value)
  {
    match get(Endpoint(org, repo))
    case HttpFailed => Err(FetchFailed)
    case HttpBody(None) => Err(DecodeFailed)
    case HttpBody(Some(j)) => DecodeRelease(j)
  }

  /** The older `fetch_latest_release` of src/lib.rs, decoding a `GithubResponse`. */
  function FetchLatestGithub(org: string, repo: string, get: string -> HttpReply): (r: Result<GithubResponse, Error>)
    ensures get(Endpoint(org, repo)).HttpFailed? ==> r == Err(FetchFailed)
    ensures get(Endpoint(org, repo)) == HttpBody(None) ==> r == Err(DecodeFailed)
    ensures r.Ok? <==> get(Endpoint(org, repo)).HttpBody? && get(Endpoint(org, repo)).parsed.Some?
                       && DecodeGithub(get(Endpoint(org, repo)).parsed.value).Ok?
    ensures r.Ok? ==> r == DecodeGithub(get(Endpoint(org, repo)).parsed.value)
  {
    match get(Endpoint(org, repo))
    case HttpFailed => Err(FetchFailed)
    case HttpBody(None) => Err(DecodeFailed)
    case HttpBody(Some(j)) => DecodeGithub(j)
  }
}

=== FILE: resolver.dfy ===
/** Release-tag resolution, as both installers' `download` do it before
    building a file name: an explicit tag wins without any fetch; otherwise
    the latest release is polled with bounded retries, falling back to a
    pinned default when no tag arrives or the tag is a prerelease. */
module Resolver {
  import opened Wrappers
  import opened Io
  import opened Releases
  import opened Retries

  /** A release repository and the resolution policy used for it. */
  datatype ReleaseRepo = ReleaseRepo(
    org: string,
    name: string,
    defaultTag: string,
    budget: nat,              // fetch attempts
    baseDelay: nat,           // seconds; round r sleeps (r + 1) * baseDelay
    latestMeansDefault: bool) // whether an explicit "latest" is replaced by the default

  const NodeRepo := ReleaseRepo("ava-labs", "avalanchego", "v1.9.16", 10, 3, true)

  const SubnetEvmRepo := ReleaseRepo("ava-labs", "subnet-evm", "v0.4.8", 20, 5, false)

  /** A fetch that ends the polling loop: it succeeded and carried a tag. */
  predicate Accepted(o: Result<ReleaseResponse, Error>) {
    o.Ok? && o.value.tagName.Some?
  }

  /** A failed fetch and a tag-less response both just consume a round. */
  function Classify(o: Result<ReleaseResponse, Error>): Answer {
    if Accepted(o) then Done else RetryableErr
  }

  /** The chosen tag, how many times the release API was fetched, and the
      backoff delays slept in between. */
  datatype Resolution = Resolution(tag: string, fetches: nat, delays: seq<nat>)

  /** `fetch(r)` is what `fetch_latest_release` returns in round `r`. */
  function ResolveTag(repo: ReleaseRepo, explicit: Option<string>, fetch: nat -> Result<ReleaseResponse, Error>): (res: Resolution)
    ensures explicit.Some? ==> res.fetches == 0 && res.delays == []
    ensures explicit.Some? ==>
      res.tag == (if repo.latestMeansDefault && explicit.value == "latest" then repo.defaultTag else explicit.value)
    ensures explicit.None? ==> res.fetches <= repo.budget
    ensures explicit.None? ==> forall i :: 0 <= i < res.fetches - 1 ==> !Accepted(fetch(i))
    ensures explicit.None? ==>
      || (res.fetches > 0 && Accepted(fetch(res.fetches - 1)))
      || (forall i :: 0 <= i < repo.budget ==> !Accepted(fetch(i)))
    ensures explicit.None? && res.fetches > 0 && Accepted(fetch(res.fetches - 1)) ==>
      && |res.delays| == res.fetches - 1
      && res.tag == (if fetch(res.fetches - 1).value.prerelease then repo.defaultTag
                     else fetch(res.fetches - 1).value.tagName.value)
    ensures explicit.None? && (forall i :: 0 <= i < repo.budget ==> !Accepted(fetch(i))) ==>
      res.fetches == repo.budget && |res.delays| == repo.budget && res.tag == repo.defaultTag
    ensures Backoff(res.delays, 0, repo.baseDelay)
  {
    match explicit
    case Some(v) =>
      Resolution(if repo.latestMeansDefault && v == "latest" then repo.defaultTag else v, 0, [])
    case None =>
      var attempt := (k: nat) => Classify(fetch(k));
      var run := Retry(attempt, repo.budget, repo.baseDelay);
      assert forall i: nat :: attempt(i) == Classify(fetch(i));
      if run.outcome == Succeeded then
        var info := fetch(run.rounds - 1).value;
        Resolution(if info.prerelease then repo.defaultTag else info.tagName.value, run.rounds, run.delays)
      else
        Resolution(repo.defaultTag, run.rounds, run.delays)
  }

  /** Without an explicit tag, the result is the default or the tag of a
      fetched stable release; a prerelease tag is never chosen. */
  lemma NeverPrerelease(repo: ReleaseRepo, fetch: nat -> Result<ReleaseResponse, Error>)
    ensures var res := ResolveTag(repo, None, fetch);
      res.tag == repo.defaultTag ||
      (res.fetches > 0 && fetch(res.fetches - 1).Ok?
       && fetch(res.fetches - 1).value.tagName == Some(res.tag)
       && !fetch(res.fetches - 1).value.prerelease)
  {
  }

  /** "latest" is not a real tag of the node repository: it resolves to the
      pinned default with no fetch. */
  lemma NodeLatestIsDefault(fetch: nat -> Result<ReleaseResponse, Error>)
    ensures ResolveTag(NodeRepo, Some("latest"), fetch) == Resolution("v1.9.16", 0, [])
  {
  }

  /** The subnet-evm installer uses any explicit tag verbatim, "latest" included. */
  lemma SubnetEvmExplicitVerbatim(tag: string, fetch: nat -> Result<ReleaseResponse, Error>)
    ensures ResolveTag(SubnetEvmRepo, Some(tag), fetch) == Resolution(tag, 0, [])
  {
  }

  /** An API that always fails costs the full budget and the full sequence
      of delays before the default is used. */
  lemma {:induction false} AlwaysFailingApi(repo: ReleaseRepo, fetch: nat -> Result<ReleaseResponse, Error>)
    requires forall i :: fetch(i).Err?
    ensures ResolveTag(repo, None, fetch)
         == Resolution(repo.defaultTag, repo.budget, seq(repo.budget, i => (i + 1) * repo.baseDelay))
  {
    var attempt := (k: nat) => Classify(fetch(k));
    AlwaysRetryableExhausts(attempt, repo.budget, repo.baseDelay);
  }

  /** The node repository's full backoff schedule: 3, 6, ..., 30 seconds. */
  lemma NodeBackoffSchedule(fetch: nat -> Result<ReleaseResponse, Error>)
    requires forall i :: fetch(i).Err?
    ensures ResolveTag(NodeRepo, None, fetch).delays == [3, 6, 9, 12, 15, 18, 21, 24, 27, 30]
  {
    AlwaysFailingApi(NodeRepo, fetch);
  }

  /** An API that answers a prerelease at once ends polling after one fetch
      and falls back to the default, without using up the budget. */
  lemma PrereleaseStopsEarly(repo: ReleaseRepo, fetch: nat -> Result<ReleaseResponse, Error>)
    requires repo.budget > 0
    requires Accepted(fetch(0)) && fetch(0).value.prerelease
    ensures ResolveTag(repo, None, fetch) == Resolution(repo.defaultTag, 1, [])
  {
  }

  /** Polling stops at the first accepted response, whatever comes after it. */
  lemma {:induction false} FirstAcceptedWins(repo: ReleaseRepo, fetch: nat -> Result<ReleaseResponse, Error>, k: nat)
    requires k < repo.budget
    requires Accepted(fetch(k)) && forall i :: 0 <= i < k ==> !Accepted(fetch(i))
    ensures ResolveTag(repo, None, fetch).fetches == k + 1
    ensures ResolveTag(repo, None, fetch).tag
         == (if fetch(k).value.prerelease then repo.defaultTag else fetch(k).value.tagName.value)
  {
    StopsAtFirstSuccess((k: nat) => Classify(fetch(k)), repo.budget, repo.baseDelay, k);
  }
}

=== FILE: retry.dfy ===
/** The bounded retry-with-linear-backoff loop that the installer writes out
    four times: release-tag polling, and `get_object` / `list_objects` in the
    object-store sync. Round `r` (counted from 0) that fails retryably is
    followed by a sleep of `(r + 1) * base` seconds, also after the last round;
    the loop stops at the first success or the first non-retryable error. */
module Retries {

  /** What one attempt answered. */
  datatype Answer = Done | RetryableErr | NonRetryableErr

  datatype Outcome = Succeeded | Aborted | Exhausted

  /** The loop's outcome, how many attempts it made, and the backoff delays
      (in seconds) it slept, in order. */
  datatype Run = Run(outcome: Outcome, rounds: nat, delays: seq<nat>)

  /** Delays `(i + 1) * base` for rounds `from .. from + |d| - 1`. */
  ghost predicate Backoff(d: seq<nat>, from: nat, base: nat) {
    forall i :: 0 <= i < |d| ==> d[i] == (from + i + 1) * base
  }

  /** The loop from round `round` on; `rounds` in the result counts from 0. */
  function RetryFrom(attempt: nat -> Answer, round: nat, budget: nat, base: nat): (run: Run)
    requires round <= budget
    ensures round <= run.rounds <= budget
    ensures run.outcome == Exhausted ==> run.rounds == budget
    ensures run.outcome != Exhausted ==> run.rounds > round
    ensures forall i :: round <= i < run.rounds - 1 ==> attempt(i) == RetryableErr
    ensures run.outcome == Exhausted ==> forall i :: round <= i < budget ==> attempt(i) == RetryableErr
    ensures run.outcome == Succeeded ==> attempt(run.rounds - 1) == Done
    ensures run.outcome == Aborted ==> attempt(run.rounds - 1) == NonRetryableErr
    ensures |run.delays| == (if run.outcome == Exhausted then run.rounds else run.rounds - 1) - round
    ensures Backoff(run.delays, round, base)
    decreases budget - round
  {
    if round == budget then Run(Exhausted, budget, [])
    else match attempt(round)
      case Done => Run(Succeeded, round + 1, [])
      case NonRetryableErr => Run(Aborted, round + 1, [])
      case RetryableErr =>
        var rest := RetryFrom(attempt, round + 1, budget, base);
        Run(rest.outcome, rest.rounds, [(round + 1) * base] + rest.delays)
  }

  /** The whole loop: at most `budget` attempts. */
  function Retry(attempt: nat -> Answer, budget: nat, base: nat): (run: Run)
    ensures run.rounds <= budget
    ensures run.outcome == Exhausted <==> (forall i :: 0 <= i < budget ==> attempt(i) == RetryableErr)
    ensures run.outcome == Exhausted ==> run.rounds == budget
    ensures run.outcome != Exhausted ==> run.rounds >= 1
    ensures forall i :: 0 <= i < run.rounds - 1 ==> attempt(i) == RetryableErr
    ensures run.outcome == Succeeded ==> attempt(run.rounds - 1) == Done
    ensures run.outcome == Aborted ==> attempt(run.rounds - 1) == NonRetryableErr
    ensures |run.delays| == (if run.outcome == Exhausted then run.rounds else run.rounds - 1)
    ensures Backoff(run.delays, 0, base)
  {
    RetryFrom(attempt, 0, budget, base)
  }

  /** The delays of rounds `from .. from + n - 1`. */
  function Delays(from: nat, n: nat, base: nat): (d: seq<nat>)
    ensures |d| == n
  {
    seq(n, i requires 0 <= i => (from + i + 1) * base)
  }

  lemma DelaysCons(from: nat, n: nat, base: nat)
    ensures Delays(from, n + 1, base) == [(from + 1) * base] + Delays(from + 1, n, base)
  {
  }

  /** The outcome the loop reaches when round `k` is the first that is not
      retryable, or `k` is the budget. */
  function StopAt(attempt: nat -> Answer, budget: nat, k: nat): Outcome {
    if k == budget then Exhausted else if attempt(k) == Done then Succeeded else Aborted
  }

  /** The loop in closed form: when rounds `round .. k - 1` are retryable and
      round `k` is not (or `k` is the budget), it stops at `k`, having slept
      once per retryable round. */
  lemma {:induction false} RetryFromClosedForm(attempt: nat -> Answer, round: nat, budget: nat, base: nat, k: nat)
    requires round <= k <= budget
    requires forall i :: round <= i < k ==> attempt(i) == RetryableErr
    requires k < budget ==> attempt(k) != RetryableErr
    ensures RetryFrom(attempt, round, budget, base)
         == Run(StopAt(attempt, budget, k), if k == budget then budget else k + 1, Delays(round, k - round, base))
    decreases k - round
  {
    if round < k {
      assert attempt(round) == RetryableErr;
      var rest := RetryFrom(attempt, round + 1, budget, base);
      assert RetryFrom(attempt, round, budget, base) == Run(rest.outcome, rest.rounds, [(round + 1) * base] + rest.delays);
      RetryFromClosedForm(attempt, round + 1, budget, base, k);
      DelaysCons(round, k - round - 1, base);
    }
  }

  /** The loop as the source writes it: `for round in 0..budget`. */
  method RetryLoop(attempt: nat -> Answer, budget: nat, base: nat) returns (run: Run)
    ensures run == Retry(attempt, budget, base)
  {
    var round := 0;
    var delays: seq<nat> := [];
    while round < budget
      invariant round <= budget
      invariant forall i :: 0 <= i < round ==> attempt(i) == RetryableErr
      invariant delays == Delays(0, round, base)
    {
      var answer := attempt(round);
      if answer != RetryableErr {
        RetryFromClosedForm(attempt, 0, budget, base, round);
        return Run(if answer == Done then Succeeded else Aborted, round + 1, delays);
      }
      assert Delays(0, round + 1, base) == delays + [(round + 1) * base];
      delays := delays + [(round + 1) * base];
      round := round + 1;
    }
    RetryFromClosedForm(attempt, 0, budget, base, budget);
    run := Run(Exhausted, budget, delays);
  }

  /** Stopping at the first success: an earlier success would have ended the loop. */
  lemma {:induction false} StopsAtFirstSuccess(attempt: nat -> Answer, budget: nat, base: nat, k: nat)
    requires k < budget
    requires attempt(k) == Done
    requires forall i :: 0 <= i < k ==> attempt(i) == RetryableErr
    ensures Retry(attempt, budget, base).outcome == Succeeded
    ensures Retry(attempt, budget, base).rounds == k + 1
  {
    StopsAtFirstSuccessFrom(attempt, 0, budget, base, k);
  }

  lemma {:induction false} StopsAtFirstSuccessFrom(attempt: nat -> Answer, round: nat, budget: nat, base: nat, k: nat)
    requires round <= k < budget
    requires attempt(k) == Done
    requires forall i :: round <= i < k ==> attempt(i) == RetryableErr
    ensures RetryFrom(attempt, round, budget, base).outcome == Succeeded
    ensures RetryFrom(attempt, round, budget, base).rounds == k + 1
    decreases k - round
  {
    if round < k {
      StopsAtFirstSuccessFrom(attempt, round + 1, budget, base, k);
    }
  }

  /** A loop whose every attempt fails retryably makes exactly `budget`
      attempts and sleeps 1, 2, ..., budget times `base`. */
  lemma AlwaysRetryableExhausts(attempt: nat -> Answer, budget: nat, base: nat)
    requires forall i :: attempt(i) == RetryableErr
    ensures Retry(attempt, budget, base) == Run(Exhausted, budget, seq(budget, i => (i + 1) * base))
  {
    var run := Retry(attempt, budget, base);
    assert run.delays == seq(budget, i => (i + 1) * base);
  }
}

=== FILE: s3_sync.dfy ===
/** `download_avalanche_and_plugins`: copy the node binary and every plugin
    under a key prefix from an object store bucket to local paths, skipping
    what is already present unless asked to overwrite. Every store call goes
    through the retry loop of `Retries` with 20 rounds and a 5-second base
    delay.

    The store's behaviour is a fault oracle indexed by the global number of
    store calls made so far, so each call sees its own answer. The local file
    system is a value threaded through the run; its operations (copy, remove,
    chmod, create_dir_all) are taken to succeed. The run's observable side is
    a trace of events. */
module S3Sync {
  import opened Wrappers
  import opened Io
  import opened Paths
  import opened Retries

  /** Rounds of every store retry loop, and the base of its linear backoff. */
  const Rounds: nat := 20
  const BaseDelay: nat := 5

  type Bytes = seq<bv8>

  datatype StoreObject = StoreObject(key: string, data: Bytes)

  /** A bucket's objects, in the order the store lists them. */
  datatype Bucket = Bucket(objects: seq<StoreObject>)

  /** The object stored under `key`, if any. */
  function Lookup(objects: seq<StoreObject>, key: string): (r: Option<Bytes>)
    ensures r.Some? <==> exists i :: 0 <= i < |objects| && objects[i].key == key
    ensures r.Some? ==> StoreObject(key, r.value) in objects
  {
    if |objects| == 0 then None
    else if objects[0].key == key then Some(objects[0].data)
    else
      var r := Lookup(objects[1..], key);
      assert forall i :: 1 <= i < |objects| ==> objects[i] == objects[1..][i - 1];
      r
  }

  /** `list_objects` with a prefix: the keys that start with it, in store order. */
  function ListKeys(objects: seq<StoreObject>, prefix: string): (r: seq<string>)
    ensures |r| <= |objects|
    ensures forall i :: 0 <= i < |r| ==> prefix <= r[i] && Lookup(objects, r[i]).Some?
    ensures forall i :: 0 <= i < |objects| && prefix <= objects[i].key ==> objects[i].key in r
  {
    if |objects| == 0 then []
    else
      var rest := ListKeys(objects[1..], prefix);
      assert forall i :: 1 <= i < |objects| ==> objects[i] == objects[1..][i - 1];
      assert forall k :: Lookup(objects[1..], k).Some? ==> Lookup(objects, k).Some?;
      if prefix <= objects[0].key then [objects[0].key] + rest else rest
  }

  /** The local file system: file contents by path, directories, files whose
      mode was set to 0o777, and the scratch files store downloads land in. */
  datatype LocalFs = LocalFs(files: map<string, Bytes>, dirs: set<string>, executable: set<string>,
                             scratch: map<nat, Bytes>, nextScratch: nat)

  /** `Path::exists`. */
  predicate Exists(fs: LocalFs, p: string) {
    p in fs.files || p in fs.dirs
  }

  /** Every scratch file in use has an id below the next fresh one. */
  ghost predicate ScratchFresh(fs: LocalFs) {
    forall id :: id in fs.scratch ==> id < fs.nextScratch
  }

  /** Nothing is ever deleted or made non-executable: the sync has no rollback. */
  ghost predicate Grows(a: LocalFs, b: LocalFs) {
    a.files.Keys <= b.files.Keys && a.dirs <= b.dirs && a.executable <= b.executable
  }

  datatype Event =
    | GetBinary(key: string)
    | ListPlugins(prefix: string)
    | CreateDirAll(path: string)
    | GetPlugin(key: string)
    | Sleep(seconds: nat)
    | Placed(path: string)

  /** The phase an event belongs to; sleeps and placements belong to the
      phase around them. */
  function Stage(e: Event): int {
    match e
    case GetBinary(_) => 0
    case ListPlugins(_) => 1
    case CreateDirAll(_) => 2
    case GetPlugin(_) => 3
    case _ => -1
  }

  ghost predicate StagesWithin(t: seq<Event>, lo: int, hi: int) {
    forall i :: 0 <= i < |t| ==> Stage(t[i]) < 0 || lo <= Stage(t[i]) <= hi
  }

  /** The phases never interleave: binary gets, then listing, then the
      directory, then plugin gets. */
  ghost predicate Ordered(t: seq<Event>) {
    forall i, j :: 0 <= i < j < |t| && Stage(t[i]) >= 0 && Stage(t[j]) >= 0 ==> Stage(t[i]) <= Stage(t[j])
  }

  lemma OrderedAppend(a: seq<Event>, b: seq<Event>, s: int)
    requires Ordered(a) && Ordered(b)
    requires StagesWithin(a, 0, s) && StagesWithin(b, s, 3)
    ensures Ordered(a + b)
  {
    var t := a + b;
    forall i, j | 0 <= i < j < |t| && Stage(t[i]) >= 0 && Stage(t[j]) >= 0
      ensures Stage(t[i]) <= Stage(t[j])
    {
      if j < |a| {
        assert t[i] == a[i] && t[j] == a[j];
      } else if i >= |a| {
        assert t[i] == b[i - |a|] && t[j] == b[j - |a|];
      } else {
        assert t[i] == a[i] && t[j] == b[j - |a|];
      }
    }
  }

  lemma OneStageOrdered(t: seq<Event>, s: int)
    requires StagesWithin(t, s, s)
    ensures Ordered(t)
  {
  }

  /** The events of one retry loop: each attempt, each followed by its sleep
      when it failed retryably. */
  function RetryEvents(call: Event, run: Run): (r: seq<Event>)
    ensures forall i :: 0 <= i < |r| ==> r[i] == call || (r[i].Sleep? && r[i].seconds in run.delays)
    ensures |run.delays| > 0 || run.outcome != Exhausted ==> |r| > 0 && r[0] == call
    ensures run.outcome != Exhausted ==> |r| > 0 && r[|r| - 1] == call
  {
    Interleave(call, run.delays) + (if run.outcome == Exhausted then [] else [call])
  }

  function Interleave(call: Event, delays: seq<nat>): (r: seq<Event>)
    ensures |r| == 2 * |delays|
    ensures forall i :: 0 <= i < |r| ==> r[i] == call || (r[i].Sleep? && r[i].seconds in delays)
    ensures |delays| > 0 ==> r[0] == call
  {
    if |delays| == 0 then []
    else
      var rest := Interleave(call, delays[1..]);
      assert forall d :: d in delays[1..] ==> d in delays;
      [call, Sleep(delays[0])] + rest
  }

  /** The backoff of a store loop sleeps a multiple of 5 seconds, at most 100. */
  lemma BackoffBounds(delays: seq<nat>)
    requires Backoff(delays, 0, BaseDelay) && |delays| <= Rounds
    ensures forall d :: d in delays ==> d % BaseDelay == 0 && BaseDelay <= d <= Rounds * BaseDelay
  {
    forall d | d in delays
      ensures d % BaseDelay == 0 && BaseDelay <= d <= Rounds * BaseDelay
    {
      var i :| 0 <= i < |delays| && delays[i] == d;
      assert d == (i + 1) * 5;
    }
  }

  /** What `get_object` answers on the call the fault oracle says `a` about:
      a missing key is a non-retryable error. */
  function GetAnswer(bucket: Bucket, key: string, a: Answer): (r: Answer)
    ensures r == RetryableErr <==> a == RetryableErr
    ensures r == Done <==> a == Done && Lookup(bucket.objects, key).Some?
  {
    if a == Done && Lookup(bucket.objects, key).None? then NonRetryableErr else a
  }

  datatype World = World(fs: LocalFs, calls: nat, trace: seq<Event>)

  /** The events one object fetch may add. */
  ghost predicate FetchEvents(t: seq<Event>, call: Event, target: string) {
    |t| > 0 && t[0] == call &&
    forall i :: 0 <= i < |t| ==>
      t[i] == call || t[i] == Placed(target) ||
      (t[i].Sleep? && t[i].seconds % BaseDelay == 0 && BaseDelay <= t[i].seconds <= Rounds * BaseDelay)
  }

  /** The `get_object` retry loop for `key`, starting at store call `calls`.
      It succeeds only on a stored key, is exhausted only after 20 retryable
      faults in a row, and succeeds at once when the first call is fault-free. */
  method GetObjectRetrying(bucket: Bucket, faults: nat -> Answer, calls: nat, key: string) returns (run: Run)
    ensures run == Retry(GetAttempts(bucket, key, faults, calls), Rounds, BaseDelay)
    ensures 1 <= run.rounds <= Rounds
    ensures run.outcome == Succeeded ==> Lookup(bucket.objects, key).Some?
    ensures run.outcome == Exhausted ==> forall j :: calls <= j < calls + Rounds ==> faults(j) == RetryableErr
    ensures faults(calls) == Done && Lookup(bucket.objects, key).Some? ==> run.outcome == Succeeded
    ensures |run.delays| > 0 || run.outcome != Exhausted
    ensures forall d :: d in run.delays ==> d % BaseDelay == 0 && BaseDelay <= d <= Rounds * BaseDelay
  {
    var attempt := GetAttempts(bucket, key, faults, calls);
    run := RetryLoop(attempt, Rounds, BaseDelay);
    BackoffBounds(run.delays);
    GetRunSucceeded(bucket, faults, calls, key);
    GetRunExhausted(bucket, faults, calls, key);
    GetRunFirstDone(bucket, faults, calls, key);
  }

  /** Round `i` of the `get_object` loop for `key` is store call `calls + i`. */
  function GetAttempts(bucket: Bucket, key: string, faults: nat -> Answer, calls: nat): nat -> Answer {
    (i: nat) => GetAnswer(bucket, key, faults(calls + i))
  }

  lemma GetAttemptAt(bucket: Bucket, key: string, faults: nat -> Answer, calls: nat, i: nat)
    ensures GetAttempts(bucket, key, faults, calls)(i) == GetAnswer(bucket, key, faults(calls + i))
  {
  }

  lemma GetRunSucceeded(bucket: Bucket, faults: nat -> Answer, calls: nat, key: string)
    ensures Retry(GetAttempts(bucket, key, faults, calls), Rounds, BaseDelay).outcome == Succeeded ==>
              Lookup(bucket.objects, key).Some?
  {
    var attempt := GetAttempts(bucket, key, faults, calls);
    var run := Retry(attempt, Rounds, BaseDelay);
    if run.outcome == Succeeded {
      GetAttemptAt(bucket, key, faults, calls, run.rounds - 1);
    }
  }

  lemma GetRunExhausted(bucket: Bucket, faults: nat -> Answer, calls: nat, key: string)
    ensures Retry(GetAttempts(bucket, key, faults, calls), Rounds, BaseDelay).outcome == Exhausted ==>
              forall j :: calls <= j < calls + Rounds ==> faults(j) == RetryableErr
  {
    var attempt := GetAttempts(bucket, key, faults, calls);
    if Retry(attempt, Rounds, BaseDelay).outcome == Exhausted {
      forall j | calls <= j < calls + Rounds
        ensures faults(j) == RetryableErr
      {
        assert attempt(j - calls) == GetAnswer(bucket, key, faults(calls + (j - calls)));
      }
    }
  }

  lemma GetRunFirstDone(bucket: Bucket, faults: nat -> Answer, calls: nat, key: string)
    ensures faults(calls) == Done && Lookup(bucket.objects, key).Some? ==>
              Retry(GetAttempts(bucket, key, faults, calls), Rounds, BaseDelay).outcome == Succeeded
  {
    var attempt := GetAttempts(bucket, key, faults, calls);
    if faults(calls) == Done && Lookup(bucket.objects, key).Some? {
      assert attempt(0) == GetAnswer(bucket, key, faults(calls + 0));
      StopsAtFirstSuccess(attempt, Rounds, BaseDelay, 0);
    }
  }

  /** The first answer of the `get_object` loop that is not a retryable
      fault decides it: the loop makes exactly that many rounds, sleeps
      5, 10, ... seconds after each earlier one, and aborts exactly when that
      answer is a non-retryable fault or the key is missing. */
  lemma GetRunDecided(bucket: Bucket, faults: nat -> Answer, calls: nat, key: string, k: nat)
    requires k < Rounds
    requires forall j :: calls <= j < calls + k ==> faults(j) == RetryableErr
    requires faults(calls + k) != RetryableErr
    ensures Retry(GetAttempts(bucket, key, faults, calls), Rounds, BaseDelay).rounds == k + 1
    ensures Retry(GetAttempts(bucket, key, faults, calls), Rounds, BaseDelay).delays == Delays(0, k, BaseDelay)
    ensures Retry(GetAttempts(bucket, key, faults, calls), Rounds, BaseDelay).outcome == Aborted <==>
              faults(calls + k) == NonRetryableErr || Lookup(bucket.objects, key).None?
    ensures Retry(GetAttempts(bucket, key, faults, calls), Rounds, BaseDelay).outcome == Succeeded <==>
              faults(calls + k) == Done && Lookup(bucket.objects, key).Some?
  {
    var attempt := GetAttempts(bucket, key, faults, calls);
    forall i | 0 <= i < k
      ensures attempt(i) == RetryableErr
    {
      assert faults(calls + i) == RetryableErr;
      assert attempt(i) == GetAnswer(bucket, key, faults(calls + i));
    }
    assert attempt(k) == GetAnswer(bucket, key, faults(calls + k));
    RetryFromClosedForm(attempt, 0, Rounds, BaseDelay, k);
  }

  /** Every backoff sleep in `t` is a multiple of 5 seconds, at most 100. */
  ghost predicate SleepsBounded(t: seq<Event>) {
    forall i :: 0 <= i < |t| && t[i].Sleep? ==>
      t[i].seconds % BaseDelay == 0 && BaseDelay <= t[i].seconds <= Rounds * BaseDelay
  }

  lemma SleepsBoundedAppend(a: seq<Event>, b: seq<Event>)
    requires SleepsBounded(a) && SleepsBounded(b)
    ensures SleepsBounded(a + b)
  {
    forall i | 0 <= i < |a + b| && (a + b)[i].Sleep?
      ensures (a + b)[i].seconds % BaseDelay == 0 && BaseDelay <= (a + b)[i].seconds <= Rounds * BaseDelay
    {
      if i < |a| {
        assert (a + b)[i] == a[i];
      } else {
        assert (a + b)[i] == b[i - |a|];
      }
    }
  }

  /** A retry loop's events sit in the phase of its call and start with it. */
  lemma FetchStages(t: seq<Event>, call: Event, target: string)
    requires FetchEvents(t, call, target) && Stage(call) >= 0
    ensures StagesWithin(t, Stage(call), Stage(call)) && SleepsBounded(t)
    ensures forall i :: 0 <= i < |t| ==> !t[i].CreateDirAll? || call.CreateDirAll?
  {
  }

  /** One `get_object` retry loop into a fresh scratch file, then copy to
      `target`, remove the scratch file and set mode 0o777. */
  method FetchObject(bucket: Bucket, faults: nat -> Answer, w: World, call: Event, key: string, target: string)
    returns (w': World, failure: Option<Error>)
    requires call == GetBinary(key) || call == GetPlugin(key)
    requires ScratchFresh(w.fs)
    ensures ScratchFresh(w'.fs) && w'.fs.scratch == w.fs.scratch
    ensures w'.fs.dirs == w.fs.dirs
    ensures failure.None? ==> Lookup(bucket.objects, key).Some?
    ensures failure.None? ==> w'.fs.files == w.fs.files[target := Lookup(bucket.objects, key).value]
    ensures failure.None? ==> w'.fs.executable == w.fs.executable + {target}
    ensures failure.Some? ==> w'.fs.files == w.fs.files && w'.fs.executable == w.fs.executable
    ensures failure.Some? ==> failure.value == GetObjectNonRetryable || failure.value == GetObjectRetriesExhausted
    ensures failure == Some(GetObjectRetriesExhausted) ==>
              forall j :: w.calls <= j < w.calls + Rounds ==> faults(j) == RetryableErr
    ensures faults(w.calls) == Done && Lookup(bucket.objects, key).Some? ==> failure.None?
    ensures w.calls < w'.calls <= w.calls + Rounds
    ensures |w.trace| < |w'.trace| && w'.trace[..|w.trace|] == w.trace
    ensures FetchEvents(w'.trace[|w.trace|..], call, target)
    ensures FollowsGetRun(bucket, faults, key, call, target, w, w', failure)
  {
    var run := GetObjectRetrying(bucket, faults, w.calls, key);
    var fs := w.fs;
    var tail := RetryEvents(call, run);
    if run.outcome == Aborted {
      failure := Some(GetObjectNonRetryable);
    } else if run.outcome == Exhausted {
      failure := Some(GetObjectRetriesExhausted);
    } else {
      fs := PlaceFile(fs, target, Lookup(bucket.objects, key).value);
      tail := tail + [Placed(target)];
      failure := None;
    }
    FetchEventsOfRun(call, run, target, tail);
    w' := World(fs, w.calls + run.rounds, w.trace + tail);
    assert w'.trace[|w.trace|..] == tail;
  }

  /** A fetch did what its `get_object` loop decided: it made the loop's
      store calls, slept its delays, failed exactly as the loop did, and
      placed the object only when the loop succeeded. */
  ghost predicate FollowsGetRun(bucket: Bucket, faults: nat -> Answer, key: string, call: Event, target: string,
                                w: World, w': World, failure: Option<Error>) {
    var run := Retry(GetAttempts(bucket, key, faults, w.calls), Rounds, BaseDelay);
    && |w.trace| <= |w'.trace|
    && w'.calls == w.calls + run.rounds
    && (failure.None? <==> run.outcome == Succeeded)
    && (failure == Some(GetObjectNonRetryable) <==> run.outcome == Aborted)
    && w'.trace[|w.trace|..] == RetryEvents(call, run) + (if failure.None? then [Placed(target)] else [])
  }

  /** A successful download lands in a fresh scratch file, is copied to
      `target`, the scratch file is removed and the target made executable:
      only the target changes. */
  function PlaceFile(fs: LocalFs, target: string, data: Bytes): (r: LocalFs)
    requires ScratchFresh(fs)
    ensures r.files == fs.files[target := data]
    ensures r.executable == fs.executable + {target}
    ensures r.dirs == fs.dirs && r.scratch == fs.scratch && ScratchFresh(r)
  {
    var id := fs.nextScratch;
    // get_object into the scratch file
    var fs1 := fs.(scratch := fs.scratch[id := data], nextScratch := id + 1);
    // fs::copy, then fs::remove_file of the scratch file
    var fs2 := fs1.(files := fs1.files[target := fs1.scratch[id]]);
    var fs3 := fs2.(scratch := fs2.scratch - {id});
    assert fs3.scratch == fs.scratch;
    // set_permissions(0o777)
    fs3.(executable := fs3.executable + {target})
  }

  lemma FetchEventsOfRun(call: Event, run: Run, target: string, tail: seq<Event>)
    requires |run.delays| > 0 || run.outcome != Exhausted
    requires forall d :: d in run.delays ==> d % BaseDelay == 0 && BaseDelay <= d <= Rounds * BaseDelay
    requires tail == RetryEvents(call, run) ||
             (run.outcome == Succeeded && tail == RetryEvents(call, run) + [Placed(target)])
    ensures FetchEvents(tail, call, target)
  {
    var events := RetryEvents(call, run);
    assert |events| > 0 && events[0] == call;
    assert tail[0] == call;
    forall i | 0 <= i < |tail|
      ensures tail[i] == call || tail[i] == Placed(target) ||
              (tail[i].Sleep? && tail[i].seconds % BaseDelay == 0 && BaseDelay <= tail[i].seconds <= Rounds * BaseDelay)
    {
      if i < |events| {
        assert tail[i] == events[i];
      }
    }
  }

  /** `extract_filename`: the stem of the key's last path component;
      `None` where the source panics on a key without a file name. */
  function ExtractFilename(key: string): (r: Option<string>)
    ensures r.Some? ==> |r.value| > 0 && NoChar(r.value, '/')
    ensures r.None? <==> FileName(key).None?
  {
    match FileName(key)
    case None => None
    case Some(n) => Some(FileStem(n))
  }

  /** Keys that name the plugin directory itself are skipped. */
  predicate IsPlaceholder(name: string) {
    EndsWith(name, "plugin") || EndsWith(name, "plugin/")
  }

  /** Where a plugin named `name` goes. */
  function PluginTarget(dir: string, name: string): string {
    dir + "/" + name
  }

  /** A key `dir/name.ext` yields `name`, whatever the directories before it. */
  lemma ExtractFilenameOfChild(dir: string, name: string, ext: string)
    requires NoChar(name, '/') && name != "" && name != "."
    requires NoChar(ext, '/') && NoChar(ext, '.')
    ensures ExtractFilename(dir + "/" + name + "." + ext) == Some(name)
  {
    var n := name + "." + ext;
    assert n == name + ['.'] + ext;
    assert NoChar(n, '/');
    assert n != "." && n != "" by { assert |n| >= 2; }
    assert n[..|name|] == name;
    assert dir + "/" + name + "." + ext == dir + "/" + n;
    ComponentsOfChild(dir, n);
    LastIndexOfAppend(name, '.', ext);
  }

  /** The example in the source's doc comment. */
  lemma ExtractFilenameExample()
    ensures ExtractFilename("a/b/c/hello.zstd") == Some("hello")
  {
    assert "a/b/c/hello.zstd" == "a/b/c" + "/" + "hello" + "." + "zstd";
    ExtractFilenameOfChild("a/b/c", "hello", "zstd");
  }

  /** An extracted name never contains `/`, so of the two placeholder
      suffixes only `plugin` can match. */
  lemma PlaceholderSuffix(key: string)
    requires ExtractFilename(key).Some?
    ensures IsPlaceholder(ExtractFilename(key).value) <==> EndsWith(ExtractFilename(key).value, "plugin")
  {
    var n := ExtractFilename(key).value;
    assert |n| > 0 && n[|n| - 1] != '/';
  }

  /** A listed key with the file name extracted from it. */
  datatype Listed = Listed(key: string, name: Option<string>)

  function ListEntries(keys: seq<string>): (r: seq<Listed>)
    ensures |r| == |keys|
    ensures forall j :: 0 <= j < |r| ==> r[j].key == keys[j] && r[j].name == ExtractFilename(keys[j])
  {
    seq(|keys|, j requires 0 <= j < |keys| => Listed(keys[j], ExtractFilename(keys[j])))
  }

  /** An entry is fetched unless its key has no file name or the name ends
      in `plugin`; the second suffix test never matters. */
  lemma WantedEntries(keys: seq<string>)
    ensures forall j :: 0 <= j < |keys| ==>
              (Wanted(ListEntries(keys)[j]) <==>
                 ExtractFilename(keys[j]).Some? && !EndsWith(ExtractFilename(keys[j]).value, "plugin"))
  {
    forall j | 0 <= j < |keys| && ExtractFilename(keys[j]).Some?
      ensures Wanted(ListEntries(keys)[j]) <==> !EndsWith(ExtractFilename(keys[j]).value, "plugin")
    {
      PlaceholderSuffix(keys[j]);
    }
  }

  /** The entries the plugin loop walks: every key under `prefix`. */
  function Listing(bucket: Bucket, prefix: string): seq<Listed> {
    ListEntries(ListKeys(bucket.objects, prefix))
  }

  /** A listed entry needs nothing more: it is a placeholder or its target exists. */
  predicate Settled(fs: LocalFs, dir: string, e: Listed) {
    match e.name
    case None => false
    case Some(n) => IsPlaceholder(n) || Exists(fs, PluginTarget(dir, n))
  }

  /** An entry that names a plugin to download. */
  predicate Wanted(e: Listed) {
    e.name.Some? && !IsPlaceholder(e.name.value)
  }

  /** A plugin get for entry `e` is allowed: it is wanted, and its target was
      absent or overwrite was asked for. */
  ghost predicate MayFetch(e: Listed, dir: string, overwrite: bool, fs: LocalFs) {
    Wanted(e) && (overwrite || !Exists(fs, PluginTarget(dir, e.name.value)))
  }

  /** The events the plugin loop adds: gets of allowed listed entries, their
      sleeps and placements. */
  ghost predicate PluginEvents(t: seq<Event>, entries: seq<Listed>, dir: string, overwrite: bool, fs0: LocalFs) {
    forall i :: 0 <= i < |t| ==>
      Stage(t[i]) < 0 ||
      exists j :: 0 <= j < |entries| && t[i] == GetPlugin(entries[j].key) && MayFetch(entries[j], dir, overwrite, fs0)
  }

  /** The events one turn of the plugin loop adds for `e`. */
  ghost predicate StepEvents(t: seq<Event>, e: Listed, dir: string, overwrite: bool, fs: LocalFs) {
    forall j :: 0 <= j < |t| && Stage(t[j]) >= 0 ==> t[j] == GetPlugin(e.key) && MayFetch(e, dir, overwrite, fs)
  }

  lemma PluginEventsStep(added: seq<Event>, news: seq<Event>, entries: seq<Listed>, k: nat, dir: string,
                         overwrite: bool, fs0: LocalFs, fs: LocalFs)
    requires PluginEvents(added, entries, dir, overwrite, fs0)
    requires k < |entries| && Grows(fs0, fs)
    requires StepEvents(news, entries[k], dir, overwrite, fs)
    ensures PluginEvents(added + news, entries, dir, overwrite, fs0)
  {
    var t := added + news;
    forall i | 0 <= i < |t| && Stage(t[i]) >= 0
      ensures exists j :: 0 <= j < |entries| && t[i] == GetPlugin(entries[j].key) && MayFetch(entries[j], dir, overwrite, fs0)
    {
      if i < |added| {
        assert t[i] == added[i];
      } else {
        assert t[i] == news[i - |added|];
        assert MayFetch(entries[k], dir, overwrite, fs0);
      }
    }
  }

  /** One turn of the plugin loop: skip a placeholder or a present target
      (unless overwriting), otherwise fetch the object. */
  method SyncOne(overwrite: bool, bucket: Bucket, faults: nat -> Answer, w: World, e: Listed, dir: string)
    returns (w': World, failure: Option<Error>)
    requires ScratchFresh(w.fs)
    ensures ScratchFresh(w'.fs) && w'.fs.scratch == w.fs.scratch
    ensures Grows(w.fs, w'.fs) && w'.fs.dirs == w.fs.dirs
    ensures |w.trace| <= |w'.trace| && w'.trace[..|w.trace|] == w.trace
    ensures StepEvents(w'.trace[|w.trace|..], e, dir, overwrite, w.fs)
    ensures SleepsBounded(w'.trace[|w.trace|..])
    ensures failure.None? ==> Settled(w'.fs, dir, e)
    ensures overwrite && failure.None? && Wanted(e) ==> GetPlugin(e.key) in w'.trace[|w.trace|..]
    ensures !overwrite && Settled(w.fs, dir, e) ==> failure.None? && w' == w
    ensures failure.Some? ==>
              failure.value in {Panicked, GetObjectNonRetryable, GetObjectRetriesExhausted}
    ensures failure == Some(Panicked) <==> e.name.None?
    ensures faults(w.calls) == Done && Lookup(bucket.objects, e.key).Some? && e.name.Some? ==> failure.None?
    ensures failure.None? && MayFetch(e, dir, overwrite, w.fs) ==> PlacedObject(bucket, e, dir, w.fs, w'.fs)
    ensures !(failure.None? && MayFetch(e, dir, overwrite, w.fs)) ==>
              w'.fs.files == w.fs.files && w'.fs.executable == w.fs.executable
  {
    if e.name.None? {
      return w, Some(Panicked);
    }
    var target := PluginTarget(dir, e.name.value);
    if IsPlaceholder(e.name.value) || (Exists(w.fs, target) && !overwrite) {
      return w, None;
    }
    w', failure := FetchEntry(overwrite, bucket, faults, w, e, dir);
  }

  /** The fetching branch of `SyncOne`, for an entry it may fetch. */
  method FetchEntry(overwrite: bool, bucket: Bucket, faults: nat -> Answer, w: World, e: Listed, dir: string)
    returns (w': World, failure: Option<Error>)
    requires ScratchFresh(w.fs) && MayFetch(e, dir, overwrite, w.fs)
    ensures ScratchFresh(w'.fs) && w'.fs.scratch == w.fs.scratch
    ensures Grows(w.fs, w'.fs) && w'.fs.dirs == w.fs.dirs
    ensures |w.trace| <= |w'.trace| && w'.trace[..|w.trace|] == w.trace
    ensures StepEvents(w'.trace[|w.trace|..], e, dir, overwrite, w.fs)
    ensures SleepsBounded(w'.trace[|w.trace|..])
    ensures failure.None? ==> PlacedObject(bucket, e, dir, w.fs, w'.fs) && GetPlugin(e.key) in w'.trace[|w.trace|..]
    ensures failure.Some? ==>
              failure.value in {GetObjectNonRetryable, GetObjectRetriesExhausted} &&
              w'.fs.files == w.fs.files && w'.fs.executable == w.fs.executable
    ensures faults(w.calls) == Done && Lookup(bucket.objects, e.key).Some? ==> failure.None?
  {
    var target := PluginTarget(dir, e.name.value);
    w', failure := FetchObject(bucket, faults, w, GetPlugin(e.key), e.key, target);
    FetchStepEvents(w'.trace[|w.trace|..], e, dir, overwrite, w.fs, target);
  }

  /** A fetch of an entry the loop may fetch adds only that entry's get. */
  lemma FetchStepEvents(t: seq<Event>, e: Listed, dir: string, overwrite: bool, fs: LocalFs, target: string)
    requires FetchEvents(t, GetPlugin(e.key), target) && MayFetch(e, dir, overwrite, fs)
    ensures StepEvents(t, e, dir, overwrite, fs) && SleepsBounded(t) && GetPlugin(e.key) in t
  {
    FetchStages(t, GetPlugin(e.key), target);
  }

  /** The object stored under `e`'s key was copied to `e`'s target, which
      is now executable, and no other file changed. */
  ghost predicate PlacedObject(bucket: Bucket, e: Listed, dir: string, fs: LocalFs, fs': LocalFs) {
    && e.name.Some?
    && Lookup(bucket.objects, e.key).Some?
    && fs'.files == fs.files[PluginTarget(dir, e.name.value) := Lookup(bucket.objects, e.key).value]
    && fs'.executable == fs.executable + {PluginTarget(dir, e.name.value)}
  }

  lemma SettledStep(fs: LocalFs, fs': LocalFs, dir: string, entries: seq<Listed>, i: nat)
    requires i < |entries| && Grows(fs, fs')
    requires forall j :: 0 <= j < i ==> Settled(fs, dir, entries[j])
    requires Settled(fs', dir, entries[i])
    ensures forall j :: 0 <= j < i + 1 ==> Settled(fs', dir, entries[j])
  {
  }

  lemma SettledGrowsUpTo(fs: LocalFs, fs': LocalFs, dir: string, entries: seq<Listed>, i: nat)
    requires i <= |entries| && Grows(fs, fs')
    requires forall j :: 0 <= j < i ==> Settled(fs, dir, entries[j])
    ensures forall j :: 0 <= j < i ==> Settled(fs', dir, entries[j])
  {
  }

  lemma FetchedStep(added: seq<Event>, news: seq<Event>, entries: seq<Listed>, i: nat)
    requires i < |entries|
    requires forall j :: 0 <= j < i && Wanted(entries[j]) ==> GetPlugin(entries[j].key) in added
    requires Wanted(entries[i]) ==> GetPlugin(entries[i].key) in news
    ensures forall j :: 0 <= j < i + 1 && Wanted(entries[j]) ==> GetPlugin(entries[j].key) in added + news
  {
  }

  /** The paths the listed entries can be copied to. */
  function PluginTargets(entries: seq<Listed>, dir: string): (r: set<string>)
    ensures forall e :: e in entries && e.name.Some? ==> PluginTarget(dir, e.name.value) in r
  {
    set e | e in entries && e.name.Some? :: PluginTarget(dir, e.name.value)
  }

  /** Every file that `b` has and `a` did not has mode 0o777. */
  ghost predicate CreatedExecutable(a: LocalFs, b: LocalFs) {
    forall p :: p in b.files && p !in a.files ==> p in b.executable
  }

  /** Every file of `a` outside `except` is still there with the same contents. */
  ghost predicate FilesKept(a: LocalFs, b: LocalFs, except: set<string>) {
    forall p :: p in a.files && p !in except ==> p in b.files && b.files[p] == a.files[p]
  }

  /** The first `i` entries that the loop may fetch have executable targets. */
  ghost predicate FetchedExecutable(entries: seq<Listed>, dir: string, overwrite: bool, fs0: LocalFs, fs: LocalFs, i: nat) {
    forall j :: 0 <= j < i && j < |entries| && MayFetch(entries[j], dir, overwrite, fs0) ==>
      PluginTarget(dir, entries[j].name.value) in fs.executable
  }

  /** One turn's effect on the files: a placement of entry `i`'s object or
      nothing, keeps the three file facts of the loop. */
  lemma PlacementStep(bucket: Bucket, entries: seq<Listed>, dir: string, overwrite: bool,
                      fs0: LocalFs, fs: LocalFs, fs': LocalFs, i: nat, success: bool)
    requires i < |entries|
    requires Grows(fs0, fs) && fs.dirs == fs0.dirs
    requires CreatedExecutable(fs0, fs) && FilesKept(fs0, fs, PluginTargets(entries, dir))
    requires FetchedExecutable(entries, dir, overwrite, fs0, fs, i)
    requires success && MayFetch(entries[i], dir, overwrite, fs) ==> PlacedObject(bucket, entries[i], dir, fs, fs')
    requires !(success && MayFetch(entries[i], dir, overwrite, fs)) ==>
               fs'.files == fs.files && fs'.executable == fs.executable
    ensures CreatedExecutable(fs0, fs') && FilesKept(fs0, fs', PluginTargets(entries, dir))
    ensures FetchedExecutable(entries, dir, overwrite, fs0, fs', if success then i + 1 else i)
  {
    var e := entries[i];
    assert e in entries;
    assert fs.executable <= fs'.executable;
    if success && Wanted(e) && MayFetch(e, dir, overwrite, fs0) && !MayFetch(e, dir, overwrite, fs) {
      var t := PluginTarget(dir, e.name.value);
      assert !Exists(fs0, t) && Exists(fs, t);
      assert t in fs.files && t !in fs0.files;
    }
  }

  lemma FetchedExecutableAll(entries: seq<Listed>, dir: string, overwrite: bool, fs0: LocalFs, fs: LocalFs)
    requires FetchedExecutable(entries, dir, overwrite, fs0, fs, |entries|)
    ensures forall e :: e in entries && MayFetch(e, dir, overwrite, fs0) ==> PluginTarget(dir, e.name.value) in fs.executable
  {
    forall e | e in entries && MayFetch(e, dir, overwrite, fs0)
      ensures PluginTarget(dir, e.name.value) in fs.executable
    {
      var j :| 0 <= j < |entries| && entries[j] == e;
    }
  }

  /** What the plugin loop keeps after `i` entries: the file system only
      grew, the trace only gained plugin events, and the first `i` entries
      are settled (and, when overwriting, were fetched if wanted). */
  ghost predicate LoopState(overwrite: bool, w0: World, w: World, added: seq<Event>, entries: seq<Listed>,
                            dir: string, i: nat) {
    && i <= |entries|
    && ScratchFresh(w.fs) && w.fs.scratch == w0.fs.scratch
    && Grows(w0.fs, w.fs) && w.fs.dirs == w0.fs.dirs
    && w.trace == w0.trace + added
    && PluginEvents(added, entries, dir, overwrite, w0.fs) && SleepsBounded(added)
    && (forall j :: 0 <= j < i ==> Settled(w.fs, dir, entries[j]))
    && (overwrite ==> forall j :: 0 <= j < i && Wanted(entries[j]) ==> GetPlugin(entries[j].key) in added)
    && CreatedExecutable(w0.fs, w.fs) && FilesKept(w0.fs, w.fs, PluginTargets(entries, dir))
    && FetchedExecutable(entries, dir, overwrite, w0.fs, w.fs, i)
  }

  /** One turn of the plugin loop, on entry `i`: on success the loop moves on,
      on failure it stops at `i`. */
  method SyncTurn(overwrite: bool, bucket: Bucket, faults: nat -> Answer, w0: World, w: World, ghost added: seq<Event>,
                  entries: seq<Listed>, dir: string, i: nat)
    returns (w': World, ghost added': seq<Event>, failure: Option<Error>, i': nat)
    requires i < |entries| && LoopState(overwrite, w0, w, added, entries, dir, i)
    ensures LoopState(overwrite, w0, w', added', entries, dir, i')
    ensures failure.None? ==> i' == i + 1
    ensures failure.Some? ==>
              i' == i && failure.value in {Panicked, GetObjectNonRetryable, GetObjectRetriesExhausted}
    ensures failure == Some(Panicked) ==> entries[i].name.None?
    ensures !overwrite && Settled(w.fs, dir, entries[i]) ==> w' == w && added' == added && failure.None?
    ensures faults(w.calls) == Done && Lookup(bucket.objects, entries[i].key).Some? && entries[i].name.Some? ==>
              failure.None?
  {
    var f;
    w', f := SyncOne(overwrite, bucket, faults, w, entries[i], dir);
    ghost var news := w'.trace[|w.trace|..];
    assert w'.trace == w.trace + news;
    PluginEventsStep(added, news, entries, i, dir, overwrite, w0.fs, w.fs);
    SleepsBoundedAppend(added, news);
    PlacementStep(bucket, entries, dir, overwrite, w0.fs, w.fs, w'.fs, i, f.None?);
    if f.None? {
      SettledStep(w.fs, w'.fs, dir, entries, i);
      if overwrite {
        FetchedStep(added, news, entries, i);
      }
      i' := i + 1;
    } else {
      SettledGrowsUpTo(w.fs, w'.fs, dir, entries, i);
      i' := i;
    }
    added' := added + news;
    failure := f;
    if !overwrite && Settled(w.fs, dir, entries[i]) {
      assert news == [];
    }
  }

  /** The plugin loop over the listed entries. */
  method SyncPlugins(overwrite: bool, bucket: Bucket, faults: nat -> Answer, w0: World, entries: seq<Listed>, dir: string)
    returns (w: World, failure: Option<Error>)
    requires ScratchFresh(w0.fs)
    ensures ScratchFresh(w.fs) && w.fs.scratch == w0.fs.scratch
    ensures Grows(w0.fs, w.fs) && w.fs.dirs == w0.fs.dirs
    ensures |w0.trace| <= |w.trace| && w.trace == w0.trace + w.trace[|w0.trace|..]
    ensures PluginEvents(w.trace[|w0.trace|..], entries, dir, overwrite, w0.fs)
    ensures SleepsBounded(w.trace[|w0.trace|..])
    ensures failure.None? ==> forall e :: e in entries ==> Settled(w.fs, dir, e)
    ensures overwrite && failure.None? ==>
              forall e :: e in entries && Wanted(e) ==> GetPlugin(e.key) in w.trace[|w0.trace|..]
    ensures !overwrite && (forall e :: e in entries ==> Settled(w0.fs, dir, e)) ==>
              failure.None? && w.trace == w0.trace
    ensures failure.Some? ==>
              failure.value in {Panicked, GetObjectNonRetryable, GetObjectRetriesExhausted}
    ensures failure == Some(Panicked) ==> exists e :: e in entries && e.name.None?
    ensures (forall n :: faults(n) == Done) &&
            (forall e :: e in entries ==> Lookup(bucket.objects, e.key).Some? && e.name.Some?) ==>
              failure.None?
    ensures CreatedExecutable(w0.fs, w.fs) && FilesKept(w0.fs, w.fs, PluginTargets(entries, dir))
    ensures failure.None? ==>
              forall e :: e in entries && MayFetch(e, dir, overwrite, w0.fs) ==> PluginTarget(dir, e.name.value) in w.fs.executable
  {
    w := w0;
    failure := None;
    ghost var added: seq<Event> := [];
    ghost var allSettled := !overwrite && (forall e :: e in entries ==> Settled(w0.fs, dir, e));
    ghost var reliable := (forall n :: faults(n) == Done) &&
      (forall e :: e in entries ==> Lookup(bucket.objects, e.key).Some? && e.name.Some?);
    if allSettled {
      SettledAt(w0.fs, dir, entries);
    }
    if reliable {
      ReliableAt(bucket, entries);
    }
    var i := 0;
    while i < |entries| && failure.None?
      invariant LoopState(overwrite, w0, w, added, entries, dir, i)
      invariant allSettled ==> w == w0 && added == [] && failure.None? &&
                               forall j :: 0 <= j < |entries| ==> Settled(w0.fs, dir, entries[j])
      invariant reliable ==> failure.None? && forall j :: 0 <= j < |entries| ==>
                               Lookup(bucket.objects, entries[j].key).Some? && entries[j].name.Some?
      invariant failure.Some? ==>
                  i < |entries| && failure.value in {Panicked, GetObjectNonRetryable, GetObjectRetriesExhausted}
      invariant failure == Some(Panicked) ==> entries[i].name.None?
      decreases |entries| - i, if failure.None? then 1 else 0
    {
      w, added, failure, i := SyncTurn(overwrite, bucket, faults, w0, w, added, entries, dir, i);
    }
    assert w.trace[|w0.trace|..] == added;
    if failure.None? {
      SettledAll(w.fs, dir, entries);
      if overwrite {
        FetchedAll(added, entries);
      }
      FetchedExecutableAll(entries, dir, overwrite, w0.fs, w.fs);
    }
    if failure == Some(Panicked) {
      assert entries[i] in entries;
    }
  }

  lemma SettledAt(fs: LocalFs, dir: string, entries: seq<Listed>)
    requires forall e :: e in entries ==> Settled(fs, dir, e)
    ensures forall j :: 0 <= j < |entries| ==> Settled(fs, dir, entries[j])
  {
    forall j | 0 <= j < |entries|
      ensures Settled(fs, dir, entries[j])
    {
      assert entries[j] in entries;
    }
  }

  lemma ReliableAt(bucket: Bucket, entries: seq<Listed>)
    requires forall e :: e in entries ==> Lookup(bucket.objects, e.key).Some? && e.name.Some?
    ensures forall j :: 0 <= j < |entries| ==> Lookup(bucket.objects, entries[j].key).Some? && entries[j].name.Some?
  {
    forall j | 0 <= j < |entries|
      ensures Lookup(bucket.objects, entries[j].key).Some? && entries[j].name.Some?
    {
      assert entries[j] in entries;
    }
  }

  lemma SettledAll(fs: LocalFs, dir: string, entries: seq<Listed>)
    requires forall j :: 0 <= j < |entries| ==> Settled(fs, dir, entries[j])
    ensures forall e :: e in entries ==> Settled(fs, dir, e)
  {
    forall e | e in entries
      ensures Settled(fs, dir, e)
    {
      var j :| 0 <= j < |entries| && entries[j] == e;
    }
  }

  lemma FetchedAll(added: seq<Event>, entries: seq<Listed>)
    requires forall j :: 0 <= j < |entries| && Wanted(entries[j]) ==> GetPlugin(entries[j].key) in added
    ensures forall e :: e in entries && Wanted(e) ==> GetPlugin(e.key) in added
  {
    forall e | e in entries && Wanted(e)
      ensures GetPlugin(e.key) in added
    {
      var j :| 0 <= j < |entries| && entries[j] == e;
    }
  }

  lemma PluginStages(t: seq<Event>, entries: seq<Listed>, dir: string, overwrite: bool, fs0: LocalFs)
    requires PluginEvents(t, entries, dir, overwrite, fs0)
    ensures StagesWithin(t, 3, 3)
  {
    forall i | 0 <= i < |t| && Stage(t[i]) >= 0
      ensures Stage(t[i]) == 3
    {
      var j :| 0 <= j < |entries| && t[i] == GetPlugin(entries[j].key) && MayFetch(entries[j], dir, overwrite, fs0);
    }
  }

  /** Appending a later phase keeps the phases in order. */
  lemma ExtendOrdered(t: seq<Event>, u: seq<Event>, lo: int, s: int, s2: int)
    requires 0 <= lo <= s <= s2 <= 3
    requires Ordered(t) && StagesWithin(t, lo, s) && StagesWithin(u, s2, s2)
    ensures Ordered(t + u) && StagesWithin(t + u, lo, s2)
  {
    OneStageOrdered(u, s2);
    OrderedAppend(t, u, s2);
    var v := t + u;
    forall i | 0 <= i < |v|
      ensures Stage(v[i]) < 0 || lo <= Stage(v[i]) <= s2
    {
      if i < |t| {
        assert v[i] == t[i];
      } else {
        assert v[i] == u[i - |t|];
      }
    }
  }

  /** A directory creation only for `dir`, and only when it was absent. */
  ghost predicate DirCreatedOnlyIfAbsent(t: seq<Event>, dir: string, fs: LocalFs) {
    forall i :: 0 <= i < |t| && t[i].CreateDirAll? ==> t[i].path == dir && !Exists(fs, dir)
  }

  lemma DirEventsExtend(t: seq<Event>, u: seq<Event>, dir: string, fs: LocalFs, s: int)
    requires DirCreatedOnlyIfAbsent(t, dir, fs) && StagesWithin(u, s, s) && s != 2
    ensures DirCreatedOnlyIfAbsent(t + u, dir, fs)
  {
    var v := t + u;
    forall i | 0 <= i < |v|
      ensures v[i].CreateDirAll? ==> v[i].path == dir && !Exists(fs, dir)
    {
      if i < |t| {
        assert v[i] == t[i];
      } else {
        assert v[i] == u[i - |t|];
      }
    }
  }

  /** Round `i` of the `list_objects` loop is store call `calls + i`. */
  function ListAttempts(faults: nat -> Answer, calls: nat): nat -> Answer {
    (i: nat) => faults(calls + i)
  }

  lemma ListRunExhausted(faults: nat -> Answer, calls: nat)
    ensures Retry(ListAttempts(faults, calls), Rounds, BaseDelay).outcome == Exhausted ==>
              forall j :: calls <= j < calls + Rounds ==> faults(j) == RetryableErr
  {
    var attempt := ListAttempts(faults, calls);
    if Retry(attempt, Rounds, BaseDelay).outcome == Exhausted {
      forall j | calls <= j < calls + Rounds
        ensures faults(j) == RetryableErr
      {
        assert attempt(j - calls) == faults(calls + (j - calls));
      }
    }
  }

  lemma ListRunFirstDone(faults: nat -> Answer, calls: nat)
    ensures faults(calls) == Done ==> Retry(ListAttempts(faults, calls), Rounds, BaseDelay).outcome == Succeeded
  {
    var attempt := ListAttempts(faults, calls);
    if faults(calls) == Done {
      assert attempt(0) == faults(calls + 0);
      StopsAtFirstSuccess(attempt, Rounds, BaseDelay, 0);
    }
  }

  /** The first answer of the `list_objects` loop that is not a retryable
      fault decides it, as for `get_object`. */
  lemma ListRunDecided(faults: nat -> Answer, calls: nat, k: nat)
    requires k < Rounds
    requires forall j :: calls <= j < calls + k ==> faults(j) == RetryableErr
    requires faults(calls + k) != RetryableErr
    ensures Retry(ListAttempts(faults, calls), Rounds, BaseDelay).rounds == k + 1
    ensures Retry(ListAttempts(faults, calls), Rounds, BaseDelay).delays == Delays(0, k, BaseDelay)
    ensures Retry(ListAttempts(faults, calls), Rounds, BaseDelay).outcome == Aborted <==> faults(calls + k) == NonRetryableErr
  {
    var attempt := ListAttempts(faults, calls);
    forall i | 0 <= i < k
      ensures attempt(i) == RetryableErr
    {
      assert faults(calls + i) == RetryableErr;
      assert attempt(i) == faults(calls + i);
    }
    assert attempt(k) == faults(calls + k);
    RetryFromClosedForm(attempt, 0, Rounds, BaseDelay, k);
  }

  /** The `list_objects` retry loop, starting at store call `calls`. */
  method ListObjectsRetrying(faults: nat -> Answer, calls: nat) returns (run: Run)
    ensures run == Retry(ListAttempts(faults, calls), Rounds, BaseDelay)
    ensures 1 <= run.rounds <= Rounds
    ensures run.outcome == Exhausted ==> forall j :: calls <= j < calls + Rounds ==> faults(j) == RetryableErr
    ensures faults(calls) == Done ==> run.outcome == Succeeded
    ensures |run.delays| > 0 || run.outcome != Exhausted
    ensures forall d :: d in run.delays ==> d % BaseDelay == 0 && BaseDelay <= d <= Rounds * BaseDelay
  {
    var attempt := ListAttempts(faults, calls);
    run := RetryLoop(attempt, Rounds, BaseDelay);
    BackoffBounds(run.delays);
    ListRunExhausted(faults, calls);
    ListRunFirstDone(faults, calls);
  }

  lemma ListStages(run: Run, prefix: string)
    requires |run.delays| > 0 || run.outcome != Exhausted
    requires forall d :: d in run.delays ==> d % BaseDelay == 0 && BaseDelay <= d <= Rounds * BaseDelay
    ensures var t := RetryEvents(ListPlugins(prefix), run);
      |t| > 0 && t[0] == ListPlugins(prefix) && StagesWithin(t, 1, 1) && SleepsBounded(t)
  {
  }

  /** The binary at `binPath` holds the object stored under `binKey` and has
      mode 0o777. */
  ghost predicate BinaryPlaced(bucket: Bucket, binKey: string, binPath: string, fs: LocalFs) {
    binPath in fs.executable && binPath in fs.files && Lookup(bucket.objects, binKey) == Some(fs.files[binPath])
  }

  /** The node binary: fetched when it is absent or overwrite is asked for,
      otherwise left alone. */
  method SyncBinary(overwrite: bool, bucket: Bucket, faults: nat -> Answer, w: World, binKey: string, binPath: string)
    returns (w': World, failure: Option<Error>)
    requires ScratchFresh(w.fs)
    ensures ScratchFresh(w'.fs) && w'.fs.scratch == w.fs.scratch
    ensures Grows(w.fs, w'.fs) && w'.fs.dirs == w.fs.dirs
    ensures |w.trace| <= |w'.trace| && w'.trace == w.trace + w'.trace[|w.trace|..]
    ensures StagesWithin(w'.trace[|w.trace|..], 0, 0) && SleepsBounded(w'.trace[|w.trace|..])
    ensures overwrite || !Exists(w.fs, binPath) ==>
              |w'.trace| > |w.trace| && w'.trace[|w.trace|] == GetBinary(binKey)
    ensures !overwrite && Exists(w.fs, binPath) ==> w' == w && failure.None?
    ensures failure.None? ==> Exists(w'.fs, binPath)
    ensures failure.None? && (overwrite || !Exists(w.fs, binPath)) ==> BinaryPlaced(bucket, binKey, binPath, w'.fs)
    ensures failure.Some? ==> failure.value in {GetObjectNonRetryable, GetObjectRetriesExhausted}
    ensures faults(w.calls) == Done && Lookup(bucket.objects, binKey).Some? ==> failure.None?
    ensures CreatedExecutable(w.fs, w'.fs)
  {
    if !overwrite && Exists(w.fs, binPath) {
      return w, None;
    }
    w', failure := FetchObject(bucket, faults, w, GetBinary(binKey), binKey, binPath);
    FetchStages(w'.trace[|w.trace|..], GetBinary(binKey), binPath);
    assert w'.trace == w'.trace[..|w.trace|] + w'.trace[|w.trace|..];
  }

  /** The listing did what its `list_objects` loop decided. */
  ghost predicate FollowsListRun(faults: nat -> Answer, prefix: string, w: World, w': World, failure: Option<Error>) {
    var run := Retry(ListAttempts(faults, w.calls), Rounds, BaseDelay);
    && |w.trace| <= |w'.trace|
    && w'.calls == w.calls + run.rounds
    && (failure.None? <==> run.outcome == Succeeded)
    && (failure == Some(ListObjectsNonRetryable) <==> run.outcome == Aborted)
    && w'.trace[|w.trace|..] == RetryEvents(ListPlugins(prefix), run)
  }

  /** The `list_objects` retry loop for the plugin prefix. */
  method ListPluginObjects(faults: nat -> Answer, w: World, prefix: string) returns (w': World, failure: Option<Error>)
    ensures w'.fs == w.fs
    ensures |w.trace| < |w'.trace| && w'.trace == w.trace + w'.trace[|w.trace|..] && w'.trace[|w.trace|] == ListPlugins(prefix)
    ensures StagesWithin(w'.trace[|w.trace|..], 1, 1) && SleepsBounded(w'.trace[|w.trace|..])
    ensures failure.Some? ==> failure.value in {ListObjectsNonRetryable, ListObjectsRetriesExhausted}
    ensures failure == Some(ListObjectsRetriesExhausted) ==>
              forall j :: w.calls <= j < w.calls + Rounds ==> faults(j) == RetryableErr
    ensures faults(w.calls) == Done ==> failure.None?
    ensures FollowsListRun(faults, prefix, w, w', failure)
  {
    var run := ListObjectsRetrying(faults, w.calls);
    var listed := RetryEvents(ListPlugins(prefix), run);
    ListStages(run, prefix);
    w' := w.(calls := w.calls + run.rounds, trace := w.trace + listed);
    assert w'.trace[|w.trace|..] == listed;
    failure := if run.outcome == Aborted then Some(ListObjectsNonRetryable)
               else if run.outcome == Exhausted then Some(ListObjectsRetriesExhausted)
               else None;
  }

  /** Settled entries stay settled as the file system grows. */
  lemma SettledGrows(a: LocalFs, b: LocalFs, dir: string, entries: seq<Listed>)
    requires Grows(a, b)
    requires forall e :: e in entries ==> Settled(a, dir, e)
    ensures forall e :: e in entries ==> Settled(b, dir, e)
  {
  }

  /** Every listed key is stored. */
  lemma ListingStored(bucket: Bucket, prefix: string)
    ensures forall e :: e in Listing(bucket, prefix) ==> Lookup(bucket.objects, e.key).Some?
  {
    var keys := ListKeys(bucket.objects, prefix);
    forall e | e in Listing(bucket, prefix)
      ensures Lookup(bucket.objects, e.key).Some?
    {
      var j :| 0 <= j < |keys| && Listing(bucket, prefix)[j] == e;
    }
  }

  lemma NoFetchesIn(t: seq<Event>)
    requires StagesWithin(t, 1, 2)
    ensures forall i :: 0 <= i < |t| ==> !t[i].GetBinary? && !t[i].GetPlugin?
  {
  }

  /** A trace with no directory phase creates no directory. */
  lemma NoDirEvents(t: seq<Event>, dir: string, fs: LocalFs)
    requires StagesWithin(t, 0, 1)
    ensures DirCreatedOnlyIfAbsent(t, dir, fs)
  {
    forall i | 0 <= i < |t|
      ensures !t[i].CreateDirAll?
    {
      assert Stage(t[i]) <= 1;
    }
  }

  /** The binary step followed by the listing loop (lines 24-113). */
  method SyncBinaryAndList(overwrite: bool, bucket: Bucket, faults: nat -> Answer, fs: LocalFs,
                           binKey: string, binPath: string, prefix: string)
    returns (w: World, failure: Option<Error>)
    requires ScratchFresh(fs)
    ensures ScratchFresh(w.fs) && w.fs.scratch == fs.scratch && Grows(fs, w.fs) && w.fs.dirs == fs.dirs
    ensures |w.trace| > 0 &&
            w.trace[0] == (if overwrite || !Exists(fs, binPath) then GetBinary(binKey) else ListPlugins(prefix))
    ensures Ordered(w.trace) && StagesWithin(w.trace, 0, 1) && SleepsBounded(w.trace)
    ensures !overwrite && Exists(fs, binPath) ==> StagesWithin(w.trace, 1, 1)
    ensures failure.None? ==> Exists(w.fs, binPath)
    ensures failure.None? && (overwrite || !Exists(fs, binPath)) ==> BinaryPlaced(bucket, binKey, binPath, w.fs)
    ensures failure.Some? ==>
              failure.value in {GetObjectNonRetryable, GetObjectRetriesExhausted,
                                ListObjectsNonRetryable, ListObjectsRetriesExhausted}
    ensures (forall n :: faults(n) == Done) && Lookup(bucket.objects, binKey).Some? ==> failure.None?
    ensures CreatedExecutable(fs, w.fs)
  {
    var w0 := World(fs, 0, []);
    var w1, f1 := SyncBinary(overwrite, bucket, faults, w0, binKey, binPath);
    assert w1.trace == w1.trace[|w0.trace|..];
    OneStageOrdered(w1.trace, 0);
    if f1.Some? {
      return w1, f1;
    }
    var w2, f2 := ListPluginObjects(faults, w1, prefix);
    ExtendOrdered(w1.trace, w2.trace[|w1.trace|..], 0, 0, 1);
    SleepsBoundedAppend(w1.trace, w2.trace[|w1.trace|..]);
    if !overwrite && Exists(fs, binPath) {
      ExtendOrdered(w1.trace, w2.trace[|w1.trace|..], 1, 1, 1);
    }
    return w2, f2;
  }

  /** Everything before the plugin loop: binary, listing and the plugin
      directory (lines 24-124). */
  method PrepareSync(overwrite: bool, bucket: Bucket, faults: nat -> Answer, fs: LocalFs,
                     binKey: string, binPath: string, prefix: string, dir: string)
    returns (w: World, failure: Option<Error>)
    requires ScratchFresh(fs)
    ensures ScratchFresh(w.fs) && w.fs.scratch == fs.scratch && Grows(fs, w.fs)
    ensures |w.trace| > 0 &&
            w.trace[0] == (if overwrite || !Exists(fs, binPath) then GetBinary(binKey) else ListPlugins(prefix))
    ensures Ordered(w.trace) && StagesWithin(w.trace, 0, 2) && SleepsBounded(w.trace)
    ensures DirCreatedOnlyIfAbsent(w.trace, dir, fs)
    ensures !overwrite && Exists(fs, binPath) ==> StagesWithin(w.trace, 1, 2)
    ensures failure.None? ==> Exists(w.fs, binPath) && Exists(w.fs, dir)
    ensures failure.None? && (overwrite || !Exists(fs, binPath)) ==> BinaryPlaced(bucket, binKey, binPath, w.fs)
    ensures failure.Some? ==>
              failure.value in {GetObjectNonRetryable, GetObjectRetriesExhausted,
                                ListObjectsNonRetryable, ListObjectsRetriesExhausted}
    ensures (forall n :: faults(n) == Done) && Lookup(bucket.objects, binKey).Some? ==> failure.None?
    ensures CreatedExecutable(fs, w.fs)
  {
    w, failure := SyncBinaryAndList(overwrite, bucket, faults, fs, binKey, binPath, prefix);
    NoDirEvents(w.trace, dir, fs);
    if failure.Some? || Exists(w.fs, dir) {
      return;
    }
    var t := w.trace;
    ExtendOrdered(t, [CreateDirAll(dir)], 0, 1, 2);
    SleepsBoundedAppend(t, [CreateDirAll(dir)]);
    DirCreatedAppend(t, dir, fs);
    if !overwrite && Exists(fs, binPath) {
      ExtendOrdered(t, [CreateDirAll(dir)], 1, 1, 2);
    }
    w := w.(fs := w.fs.(dirs := w.fs.dirs + {dir}), trace := t + [CreateDirAll(dir)]);
  }

  lemma DirCreatedAppend(t: seq<Event>, dir: string, fs: LocalFs)
    requires DirCreatedOnlyIfAbsent(t, dir, fs) && !Exists(fs, dir)
    ensures DirCreatedOnlyIfAbsent(t + [CreateDirAll(dir)], dir, fs)
  {
    var v := t + [CreateDirAll(dir)];
    forall i | 0 <= i < |v|
      ensures v[i].CreateDirAll? ==> v[i].path == dir && !Exists(fs, dir)
    {
      if i < |t| {
        assert v[i] == t[i];
      }
    }
  }

  /** The plugin loop's events keep the whole trace's phase, sleep and
      directory properties. */
  lemma FinishTrace(t: seq<Event>, u: seq<Event>, entries: seq<Listed>, dir: string, overwrite: bool,
                    fs0: LocalFs, fs: LocalFs)
    requires Ordered(t) && StagesWithin(t, 0, 2) && SleepsBounded(t) && DirCreatedOnlyIfAbsent(t, dir, fs)
    requires PluginEvents(u, entries, dir, overwrite, fs0) && SleepsBounded(u)
    ensures Ordered(t + u) && SleepsBounded(t + u) && DirCreatedOnlyIfAbsent(t + u, dir, fs)
  {
    PluginStages(u, entries, dir, overwrite, fs0);
    ExtendOrdered(t, u, 0, 2, 3);
    DirEventsExtend(t, u, dir, fs, 3);
    SleepsBoundedAppend(t, u);
  }

  lemma FinishFiles(fs: LocalFs, fs3: LocalFs, fs4: LocalFs, targets: set<string>)
    requires CreatedExecutable(fs, fs3) && CreatedExecutable(fs3, fs4) && Grows(fs3, fs4)
    requires FilesKept(fs3, fs4, targets)
    ensures CreatedExecutable(fs, fs4)
    ensures forall p :: p in fs3.files && p !in targets ==> p in fs4.files && fs4.files[p] == fs3.files[p]
  {
  }

  /** The whole sync. `fs'` and `trace` are the file system and the events
      after the run; `failure` is the error it returned, if any. */
  method DownloadAvalancheAndPlugins(overwrite: bool, bucket: Bucket, faults: nat -> Answer, fs: LocalFs,
                                     binKey: string, binPath: string, prefix: string, dir: string)
    returns (fs': LocalFs, trace: seq<Event>, failure: Option<Error>)
    requires ScratchFresh(fs)
    ensures |trace| > 0 &&
            trace[0] == (if overwrite || !Exists(fs, binPath) then GetBinary(binKey) else ListPlugins(prefix))
    ensures Grows(fs, fs') && ScratchFresh(fs') && fs'.scratch == fs.scratch
    ensures Ordered(trace) && SleepsBounded(trace)
    ensures DirCreatedOnlyIfAbsent(trace, dir, fs)
    ensures failure.None? ==> Exists(fs', binPath) && Exists(fs', dir)
    ensures failure.None? && (overwrite || !Exists(fs, binPath)) ==> binPath in fs'.executable
    ensures failure.None? && (overwrite || !Exists(fs, binPath)) && binPath !in PluginTargets(Listing(bucket, prefix), dir) ==>
              BinaryPlaced(bucket, binKey, binPath, fs')
    ensures CreatedExecutable(fs, fs')
    ensures failure.None? && overwrite ==>
              forall e :: e in Listing(bucket, prefix) && Wanted(e) ==> PluginTarget(dir, e.name.value) in fs'.executable
    ensures failure.None? ==> forall e :: e in Listing(bucket, prefix) ==> Settled(fs', dir, e)
    ensures !overwrite && Exists(fs, binPath) && (forall e :: e in Listing(bucket, prefix) ==> Settled(fs, dir, e)) ==>
              forall i :: 0 <= i < |trace| ==> !trace[i].GetBinary? && !trace[i].GetPlugin?
    ensures failure.Some? ==>
              failure.value in {GetObjectNonRetryable, GetObjectRetriesExhausted,
                                ListObjectsNonRetryable, ListObjectsRetriesExhausted, Panicked}
    ensures failure == Some(Panicked) ==> exists e :: e in Listing(bucket, prefix) && e.name.None?
    ensures (forall n :: faults(n) == Done) && Lookup(bucket.objects, binKey).Some? &&
            (forall e :: e in Listing(bucket, prefix) ==> e.name.Some?) ==>
              failure.None?
  {
    var w3;
    w3, failure := PrepareSync(overwrite, bucket, faults, fs, binKey, binPath, prefix, dir);
    if failure.Some? {
      return w3.fs, w3.trace, failure;
    }
    var entries := Listing(bucket, prefix);
    ListingStored(bucket, prefix);
    var w4;
    w4, failure := SyncPlugins(overwrite, bucket, faults, w3, entries, dir);
    FinishTrace(w3.trace, w4.trace[|w3.trace|..], entries, dir, overwrite, w3.fs, fs);
    FinishFiles(fs, w3.fs, w4.fs, PluginTargets(entries, dir));
    if !overwrite && Exists(fs, binPath) && (forall e :: e in entries ==> Settled(fs, dir, e)) {
      SettledGrows(fs, w3.fs, dir, entries);
      NoFetchesIn(w4.trace);
    }
    return w4.fs, w4.trace, failure;
  }

  /** A second sync without overwrite, after a successful one against the
      same bucket, lists the plugins again but fetches nothing. */
  method SyncTwice(overwrite: bool, bucket: Bucket, faults1: nat -> Answer, faults2: nat -> Answer, fs: LocalFs,
                   binKey: string, binPath: string, prefix: string, dir: string)
    returns (fs2: LocalFs, trace1: seq<Event>, failure1: Option<Error>, trace2: seq<Event>, failure2: Option<Error>)
    requires ScratchFresh(fs)
    ensures Grows(fs, fs2)
    ensures failure1.None? ==> |trace2| > 0 && trace2[0] == ListPlugins(prefix)
    ensures failure1.None? ==> forall i :: 0 <= i < |trace2| ==> !trace2[i].GetBinary? && !trace2[i].GetPlugin?
  {
    var fs1;
    fs1, trace1, failure1 := DownloadAvalancheAndPlugins(overwrite, bucket, faults1, fs, binKey, binPath, prefix, dir);
    fs2, trace2, failure2 := DownloadAvalancheAndPlugins(false, bucket, faults2, fs1, binKey, binPath, prefix, dir);
    assert Grows(fs, fs2);
  }
}

=== FILE: subnet_evm_installer.dfy ===
/** The subnet-evm installer of src/subnet_evm/github.rs: its archive names
    drop the tag's leading `v`s, Windows is refused, and the binary sits at
    the top of the unpacked tree. */
module SubnetEvmInstaller {
  import opened Wrappers
  import opened Io
  import opened Paths
  import opened Platform
  import opened Releases
  import opened Resolver
  import opened Archives

  /** `str::trim_start_matches("v")`: every leading `v` removed. */
  function TrimLeadingV(s: string): (r: string)
    ensures |r| <= |s| && r == s[|s| - |r|..]
    ensures |r| == 0 || r[0] != 'v'
    ensures forall i :: 0 <= i < |s| - |r| ==> s[i] == 'v'
    decreases |s|
  {
    if |s| > 0 && s[0] == 'v' then TrimLeadingV(s[1..]) else s
  }

  /** A tag without a leading `v` is left alone, and trimming twice is trimming once. */
  lemma TrimLeadingVIdempotent(s: string)
    ensures TrimLeadingV(TrimLeadingV(s)) == TrimLeadingV(s)
  {
  }

  /** The release asset for an explicit OS; Windows has none. */
  function SubnetFileTable(tag: string, arch: string, os: Os): Result<ArchiveSpec, Error> {
    match os
    case MacOs => Ok(ArchiveSpec("subnet-evm_" + TrimLeadingV(tag) + "_darwin_" + arch + ".tar.gz", TarGzip))
    case Linux => Ok(ArchiveSpec("subnet-evm_" + TrimLeadingV(tag) + "_linux_" + arch + ".tar.gz", TarGzip))
    case Windows => Err(WindowsNotSupported)
  }

  /** Every name is non-empty, a gzip tarball, and named as one. */
  lemma SubnetFileTableFacts(tag: string, arch: string, os: Os)
    ensures SubnetFileTable(tag, arch, os).Ok? <==> os != Windows
    ensures SubnetFileTable(tag, arch, os).Ok? ==>
      var spec := SubnetFileTable(tag, arch, os).value;
      spec.fileName != "" && spec.decoder == TarGzip && NameMatchesDecoder(spec)
  {
    match os
    case MacOs => ExtensionFacts("subnet-evm_" + TrimLeadingV(tag) + "_darwin_" + arch);
    case Linux => ExtensionFacts("subnet-evm_" + TrimLeadingV(tag) + "_linux_" + arch);
    case Windows =>
  }

  /** The archive to download: auto-detection accepts macOS and other unix
      hosts only; the empty-name check of the source can never fire. */
  function SubnetEvmArchive(tag: string, arch: string, os: Option<Os>, host: Host): (r: Result<ArchiveSpec, Error>)
    ensures os == Some(Windows) ==> r == Err(WindowsNotSupported)
    ensures os.Some? ==> r == SubnetFileTable(tag, arch, os.value)
    ensures os.None? ==> (r.Err? <==> host.family == WindowsHost || host.family == UnknownHost)
    ensures os.None? && r.Err? ==> r.error == UnknownOsHost
    ensures os.None? && host.family == MacOsHost ==> r == SubnetFileTable(tag, arch, MacOs)
    ensures os.None? && host.family == OtherUnixHost ==> r == SubnetFileTable(tag, arch, Linux)
    ensures r.Ok? ==> r.value.decoder == TarGzip && NameMatchesDecoder(r.value)
  {
    var table :=
      match os
      case Some(o) => SubnetFileTable(tag, arch, o)
      case None =>
        match host.family
        case MacOsHost => SubnetFileTable(tag, arch, MacOs)
        case OtherUnixHost => SubnetFileTable(tag, arch, Linux)
        case _ => Err(UnknownOsHost);
    SubnetFileTableFacts(tag, arch, MacOs);
    SubnetFileTableFacts(tag, arch, Linux);
    match table
    case Err(e) => Err(e)
    case Ok(spec) => if spec.fileName == "" then Err(UnknownPlatform(host.osName)) else Ok(spec)
  }

  /** Reads the trimmed tag back out of an archive name. */
  function SubnetVersionFromFileName(name: string, arch: string, os: Os): Option<string> {
    match os
    case MacOs => Strip(name, "subnet-evm_", "_darwin_" + arch + ".tar.gz")
    case Linux => Strip(name, "subnet-evm_", "_linux_" + arch + ".tar.gz")
    case Windows => None
  }

  /** The archive name carries exactly the tag without its leading `v`s. */
  lemma SubnetFileNameRoundTrip(tag: string, arch: string, os: Os)
    requires os != Windows
    ensures SubnetVersionFromFileName(SubnetFileTable(tag, arch, os).value.fileName, arch, os) == Some(TrimLeadingV(tag))
  {
    var v := TrimLeadingV(tag);
    match os
    case MacOs =>
      assert "subnet-evm_" + v + "_darwin_" + arch + ".tar.gz" == "subnet-evm_" + v + ("_darwin_" + arch + ".tar.gz");
      StripConcat("subnet-evm_", v, "_darwin_" + arch + ".tar.gz");
    case Linux =>
      assert "subnet-evm_" + v + "_linux_" + arch + ".tar.gz" == "subnet-evm_" + v + ("_linux_" + arch + ".tar.gz");
      StripConcat("subnet-evm_", v, "_linux_" + arch + ".tar.gz");
  }

  /** Tags that differ only in a leading `v` name the same archive, while the
      URL keeps the tag as given. */
  lemma LeadingVOnlyInUrl(tag: string, arch: string, os: Os, fileName: string)
    ensures SubnetFileTable("v" + tag, arch, os) == SubnetFileTable(tag, arch, os)
    ensures DownloadUrl(SubnetEvmRepo, "v" + tag, fileName) != DownloadUrl(SubnetEvmRepo, tag, fileName)
  {
    assert ("v" + tag)[1..] == tag;
    var p := "https://github.com/" + SubnetEvmRepo.org + "/" + SubnetEvmRepo.name + "/releases/download/";
    assert |DownloadUrl(SubnetEvmRepo, "v" + tag, fileName)| == |p| + 1 + |tag| + 1 + |fileName|;
    assert |DownloadUrl(SubnetEvmRepo, tag, fileName)| == |p| + |tag| + 1 + |fileName|;
  }

  /** The binary sits at `<dst>/subnet-evm` whatever the tag or decoder. */
  function SubnetEvmBinaryPath(dst: FsPath): (p: FsPath)
    ensures p == FsPath(dst.absolute, dst.parts + ["subnet-evm"])
    ensures Parent(p) == Some(dst)
  {
    assert NoChar("subnet-evm", '/');
    ComponentsOfName("subnet-evm");
    Join(dst, "subnet-evm")
  }

  /** `download`: as the avalanchego installer's, with an explicit tag always
      used verbatim and the 20-round, 5-second policy. */
  function SubnetEvmDownload(arch: Option<Arch>, os: Option<Os>, releaseTag: Option<string>,
                             fetch: nat -> Result<ReleaseResponse, Error>, env: InstallEnv): (r: Result<FsPath, Error>)
    ensures os == Some(Windows) ==> r == Err(WindowsNotSupported)
    ensures os.None? && (env.host.family == WindowsHost || env.host.family == UnknownHost) ==> r == Err(UnknownOsHost)
    ensures r.Ok? ==> r.value == SubnetEvmBinaryPath(env.scratchDir) && r.value in env.unpacked
    ensures r.Ok? ==> env.unpackOk && env.chmodOk
    ensures r.Ok? ==> var tag := ResolveTag(SubnetEvmRepo, releaseTag, fetch).tag;
      exists spec :: SubnetEvmArchive(tag, ResolveArchLabel(arch, env.host.arch), os, env.host) == Ok(spec)
                  && env.downloadOk(DownloadUrl(SubnetEvmRepo, tag, spec.fileName))
  {
    var tag := ResolveTag(SubnetEvmRepo, releaseTag, fetch).tag;
    var spec :- SubnetEvmArchive(tag, ResolveArchLabel(arch, env.host.arch), os, env.host);
    if !env.downloadOk(DownloadUrl(SubnetEvmRepo, tag, spec.fileName)) then Err(DownloadFailed)
    else if !env.unpackOk then Err(UnpackFailed)
    else
      // A failed removal of the scratch archive is only logged: env.removeOk plays no part.
      var bin := SubnetEvmBinaryPath(env.scratchDir);
      if bin !in env.unpacked then Err(OpenFailed)
      else if !env.chmodOk then Err(ChmodFailed)
      else Ok(bin)
  }

  /** Failing to remove the scratch archive never changes the outcome. */
  lemma SubnetScratchRemovalIsBestEffort(arch: Option<Arch>, os: Option<Os>, releaseTag: Option<string>,
                                         fetch: nat -> Result<ReleaseResponse, Error>, env: InstallEnv)
    ensures SubnetEvmDownload(arch, os, releaseTag, fetch, env.(removeOk := false))
         == SubnetEvmDownload(arch, os, releaseTag, fetch, env.(removeOk := true))
  {
  }

  /** Conversely, when every step succeeds the binary path is returned. */
  lemma SubnetEvmDownloadSucceeds(arch: Option<Arch>, os: Option<Os>, releaseTag: Option<string>,
                                  fetch: nat -> Result<ReleaseResponse, Error>, env: InstallEnv,
                                  tag: string, spec: ArchiveSpec)
    requires tag == ResolveTag(SubnetEvmRepo, releaseTag, fetch).tag
    requires SubnetEvmArchive(tag, ResolveArchLabel(arch, env.host.arch), os, env.host) == Ok(spec)
    requires env.downloadOk(DownloadUrl(SubnetEvmRepo, tag, spec.fileName))
    requires env.unpackOk && env.chmodOk
    requires SubnetEvmBinaryPath(env.scratchDir) in env.unpacked
    ensures SubnetEvmDownload(arch, os, releaseTag, fetch, env) == Ok(SubnetEvmBinaryPath(env.scratchDir))
  {
  }
}

=== FILE: wrappers.dfy ===
/** Option and Result types used throughout the model, with the members that
    make them usable with Dafny's `:-` failure-propagation operator. */
module Wrappers {

  datatype Option<+T> = None | Some(value: T) {

    function GetOr(default: T): T {
      match this
      case Some(v) => v
      case None => default
    }
  }

  datatype Result<+T, +E> = Ok(value: T) | Err(error: E) {

    predicate IsFailure() {
      Err?
    }

    function PropagateFailure<U>(): Result<U, E>
      requires Err?
    {
      Err(error)
    }

    function Extract(): T
      requires Ok?
    {
      value
    }
  }
}

/** The failures the installer reports, one constructor per distinct error
    site. Most are `std::io::Error` values; `Panicked` stands for an
    `unwrap` on `None`, which is a panic and not an error value. */
module Io {
  import opened Wrappers

  /** `InvalidInput` and `Other` are the kinds the installer itself writes;
      `Propagated` marks an error passed on with `?` from the operating system
      or a helper crate, whose kind the installer does not choose. */
  datatype ErrorKind = InvalidInput | Other | Propagated

  datatype Error =
    | UnknownArch(arch: string)          // Arch::new on an unknown label
    | UnknownOs(os: string)              // Os::new on an unknown label
    | UnknownPlatform(hostOs: string)    // empty archive file name
    | UnknownOsHost                      // subnet-evm on a non-unix host
    | WindowsNotSupported                // subnet-evm asked for Windows
    | FetchFailed                        // the HTTP GET of the release API failed
    | DecodeFailed                       // the release API body did not decode
    | DownloadFailed                     // the archive download failed
    | UnpackFailed                       // the archive did not unpack
    | RemoveFailed                       // the scratch archive could not be removed
    | OpenFailed                         // the binary is not where the layout says
    | ChmodFailed                        // set_permissions(0o777) failed
    | GetObjectNonRetryable              // object-store get, non-retryable error
    | GetObjectRetriesExhausted          // object-store get, 20 retryable errors
    | ListObjectsNonRetryable            // object-store list, non-retryable error
    | ListObjectsRetriesExhausted        // object-store list, 20 retryable errors
    | Panicked                           // an `unwrap`/`expect` on None

  /** The `ErrorKind` of an error value; `None` for a panic. */
  function Kind(e: Error): (k: Option<ErrorKind>)
    ensures k.None? <==> e == Panicked
    ensures k == Some(InvalidInput) <==> e.UnknownArch? || e.UnknownOs?
    ensures k == Some(Propagated) <==>
              e in {FetchFailed, DownloadFailed, UnpackFailed, RemoveFailed, OpenFailed, ChmodFailed}
  {
    match e
    case UnknownArch(_) => Some(InvalidInput)
    case UnknownOs(_) => Some(InvalidInput)
    case FetchFailed => Some(Propagated)
    case DownloadFailed => Some(Propagated)
    case UnpackFailed => Some(Propagated)
    case RemoveFailed => Some(Propagated)
    case OpenFailed => Some(Propagated)
    case ChmodFailed => Some(Propagated)
    case Panicked => None
    case _ => Some(Other)
  }
}
